=== FILE: README.md ===
# SimulatorRequest and the SymuMaster path readers, in Dafny

symupy couples Python code to the SymuVia traffic simulator. After every
simulation step the engine writes an XML snapshot of the vehicles on the
network into a buffer. `SimulatorRequest` (symupy/utils/parser.py) decodes
that buffer and answers questions about it: which vehicles are on a link and
lane, whether a vehicle is present or driven, and which vehicles are ahead of
or behind one. The SymuMaster readers (symupy/plugins/reader/symumaster.py)
read paths back from the CSV files of a finished run. They split a
backslash-separated path cell and keep every other token.

The model has the same two phases as the code:

- **Decoding and normalisation** (`Snapshot`, `Schema`, `Numerals`). The
  outcome of the XML decoder is an input (`Snapshot.Decoding`). `DataQuery`
  turns a decoder failure into `{}`. `GetVehicleData` collects the `TRAJ`
  elements, whether there is one or a list. `Transform` renames each raw
  attribute (`@id` becomes `vehid`, `@tron` becomes `link`, and so on) and
  converts its text with `int`, `float` or `str`. These steps return
  `Result`, so the `KeyError`, `ValueError` and `AttributeError` that the
  code raises are modelled rather than excluded.
- **Queries** (`Queries`). Each query is a pure function of the list of
  records. A record is a `map<string, Value>`. Reading a missing field gives
  `Null`, which is Python's `None` from `dict.get`.
- **Path readers** (`PathText`, `SymuMaster`). A CSV frame is a list of rows
  of cells: `Text`, `Int`, `Float` or `NaN`. `PathText` models `str.split`,
  Python slicing with negative bounds, and `[::2]`. `SymuMaster` models the
  three readers, including their error paths.
- **End to end** (`Request`). A response the decoder rejects answers every
  query with nothing. Records produced by `get_vehicle_data` carry only the
  renamed fields. The fixtures of tests/test_parser.py are stated as
  concrete lemmas.

The helper modules are `Wrappers` (`Option`, `Result` and `PyError`, the
Python exception raised) and `Seqs` (list comprehensions as `Map` and
`Filter`, with lemmas about concatenation).

Where the code and its documented intent differ, the model follows the code:

- A record whose conversion fails is not dropped. `transform` raises, and
  `get_vehicle_data` passes the error on (`Schema.TransformPairs`,
  `Snapshot.GetVehicleData`).
- `is_vehicle_in_link` calls `set(veh)` on an `int`, which raises
  `TypeError`. Its tests expect a membership test in
  `vehicles_in_link(link)`, so the model implements that test.
- `vehicle_downstream_of` and `vehicle_upstream_of` call
  `query_vehicle_link`, `query_vehicle_position` and `vehicle_in_link`. None
  of these helpers is defined: the first two are commented out and the third
  does not exist. The model implements what their tests and docstrings
  describe. The neighbours are the other vehicles on the reference vehicle's
  link, on any lane, that are strictly further along (downstream) or
  strictly behind it (upstream). The result is `None` when the reference
  vehicle has no position. As written, `set(vehid)` would also raise
  `TypeError` on an integer id.
- `is_vehicle_driven` is covered under Findings.

## Model

| member | source | states |
|---|---|---|
| Numerals.ParseIntOfIntToString | symupy/utils/parser.py:131 | `int` reads back every integer that `str` renders: `ParseInt(IntToString(n)) == Some(n)` |
| Numerals.CanonicalIntRoundTrip | symupy/utils/parser.py:131 | every canonical integer text (no `+`, no leading zero, no `-0`) parses, and rendering the result gives back the same text |
| Numerals.NatToStringOfDigitsValue | symupy/utils/parser.py:131 | a digit string without leading zeros is the rendering of its own value |
| Numerals.DigitsValueUpperBound | symupy/utils/parser.py:131 | a digit string of length k has a value below 10^k |
| Numerals.DigitsValueLowerBound | symupy/utils/parser.py:131 | a digit string of length k that does not start with `0` has a value of at least 10^(k-1) |
| Numerals.ParseFloatOfIntToString | symupy/utils/parser.py:131 | `float` of an integer's text is that integer as a real |
| Numerals.ParseFloatOfFixed2 | symupy/utils/parser.py:131 | `float` of the engine's two-decimal text (`"44.12"`, `"-2.00"`) is exactly cents/100 |
| Numerals.ParseFloatOfDecimal | symupy/utils/parser.py:131 | text made of an optional `-`, digits, a point and digits parses to its decimal value, negated when the sign is present |
| Numerals.ParseIntAccepts | symupy/utils/parser.py:131 | `int` accepts exactly an optional sign followed by one or more digits. Any other text, such as `""`, `"-"`, `"5a"` or `"1.5"`, raises `ValueError` |
| Numerals.ParseFloatAccepts | symupy/utils/parser.py:131 | `float` accepts exactly an optional sign followed by digits with at most one point and at least one digit. Any other text, such as `"1.2.3"`, `"1.5x"` or `"."`, raises `ValueError` |
| Schema.Coerce | symupy/utils/parser.py:131 | an unknown attribute raises `KeyError(key)`. A known one converts to its field's format. Text fields are kept verbatim. An `int` field succeeds exactly when `ParseInt` accepts the text and holds the parsed integer; a `float` field likewise with `ParseFloat`. A failed `int`/`float` raises `ValueError(text)` |
| Schema.FieldDataInjective | symupy/utils/parser.py:130-133 | the renaming and conversion tables have the same attributes, and distinct attributes get distinct canonical names |
| Schema.CanonicalNamesAreNotRaw | symupy/utils/parser.py:130-133 | no canonical name is itself a raw attribute name or starts with `@` |
| Schema.TransformPairs | symupy/utils/parser.py:130-133 | the comprehension succeeds exactly when every attribute converts. On failure, the error is that of the first attribute that does not convert |
| Schema.TransformPairsKeys | symupy/utils/parser.py:130-133 | the keys of the converted record are exactly the canonical names of the attributes |
| Schema.TransformPairsValues | symupy/utils/parser.py:130-133 | under each canonical name sits the converted value of the last attribute with that raw name (later entries of a dict comprehension win) |
| Schema.TransformPairsSize | symupy/utils/parser.py:130-133 | with distinct attribute names, the record has as many fields as the element has attributes |
| Schema.Transform | symupy/utils/parser.py:98-133 | a `TRAJ` without attributes (decoded as `None`) raises `AttributeError`. Any other `TRAJ` is converted attribute by attribute |
| Schema.CoerceRendered | symupy/utils/parser.py:109-126 | integer attributes convert `str(n)` back to `n`, and float attributes convert the two-decimal rendering of cents/100 back to that value |
| Snapshot.DataQuery | symupy/utils/parser.py:63-72 | a decoded document is returned as it is, and any decoder failure gives `{}` |
| Snapshot.TransformAll | symupy/utils/parser.py:94 | the list succeeds exactly when every element transforms. It then holds one record per element, in order. Otherwise the error is that of the first element that fails, every element before it transforming |
| Snapshot.GetVehicleData | symupy/utils/parser.py:84-96 | no `INST` or no `TRAJS` gives `[]`. An `INST` that decodes to no mapping raises `AttributeError`, and a `TRAJS` with no `TRAJ` child raises `KeyError('TRAJ')`. Otherwise the call succeeds exactly when every `TRAJ` converts, giving one transformed record per `TRAJ` in document order, and otherwise raises the error of the first `TRAJ` that fails |
| Snapshot.FailedDecodingHasNoVehicles | symupy/utils/parser.py:63-96 | a buffer the decoder rejects yields no vehicles, not an error |
| Snapshot.SingleIsOneElementList | symupy/utils/parser.py:93-95 | a single `TRAJ` mapping gives the same result as a list holding only that mapping |
| Queries.GetVehiclesProperty | symupy/utils/parser.py:135-147 | one value per vehicle, in snapshot order: that vehicle's field, or `None` |
| Queries.AbsentPropertyIsNull | symupy/utils/parser.py:135-147 | a property no record has reads as `None` for every vehicle, and the tuple keeps one entry per vehicle |
| Queries.IdValues | symupy/utils/parser.py:161 | the set of ids is exactly the ids the records carry |
| Queries.PropertyWhereIdInIsFilter | symupy/utils/parser.py:159-167 | keeping records whose id is in (ids present) ∩ (ids requested) is the same as keeping records whose id is requested |
| Queries.PropertyAppend | symupy/utils/parser.py:147 | the property tuple of a concatenation is the concatenation of the tuples, so order is kept |
| Queries.FilterVehicleProperty | symupy/utils/parser.py:149-168 | with no ids, returns every vehicle's value. Otherwise returns the value of exactly the records whose id was requested, in snapshot order |
| Queries.IsVehicleInNetwork | symupy/utils/parser.py:212-227 | true exactly when the first id and every further id are present in the snapshot |
| Queries.InNetworkIsConjunction | symupy/utils/parser.py:224-227 | the several-id form is the conjunction of the one-id forms, so order and repetition of ids do not matter |
| Queries.VehiclesInLink | symupy/utils/parser.py:229-245 | an id is listed exactly when some record on that link and lane carries it. The list is no longer than the snapshot |
| Queries.VehiclesInLinkAppend | symupy/utils/parser.py:241-245 | occupancy keeps snapshot order: a concatenation lists the first part's vehicles, then the second's |
| Queries.LanesAreDisjoint | symupy/utils/parser.py:229-245 | with unique ids, no vehicle is listed on two different lanes of a link |
| Queries.IsVehicleInLink | symupy/utils/parser.py:247-259 | true exactly when a record with that id is on the link on the default lane 1. It then implies the vehicle is in the network |
| Queries.AnyForced | symupy/utils/parser.py:270-275 | true exactly when some record with that id has the forced driving mode |
| Queries.IsVehicleDriven | symupy/utils/parser.py:261-276 | (corrected) true exactly when a record with that id has the forced driving mode. An absent vehicle gives false |
| Queries.DrivenAsWrittenIsNeverTrue | symupy/utils/parser.py:268-276 | on renamed records, the lookups of `@id` and `@etat_pilotage` never match, so the code as written answers false |
| Queries.Anchor | symupy/utils/parser.py:286-287 | the reference position comes from a record with that id. An absent vehicle has none |
| Queries.DownstreamOf | symupy/utils/parser.py:278-298 | `None` exactly when the vehicle has no position. Otherwise the result never contains the vehicle itself, and every id in it is present |
| Queries.UpstreamOf | symupy/utils/parser.py:300-320 | `None` exactly when the vehicle has no position. Otherwise the result never contains the vehicle itself, and every id in it is present |
| Queries.AnchorOfUnique | symupy/utils/parser.py:286-287 | with unique ids, a vehicle's reference position is that of its own record |
| Queries.OnlyRecordOf | symupy/utils/parser.py:289-290 | with unique ids, two records with the same id are the same record |
| Queries.DownstreamMembers | symupy/utils/parser.py:278-298 | with unique ids, u is downstream of v exactly when u is another vehicle on v's link whose distance is strictly greater |
| Queries.UpstreamMembers | symupy/utils/parser.py:300-320 | with unique ids, u is upstream of v exactly when u is another vehicle on v's link whose distance is strictly smaller |
| Queries.NeighboursAreDisjoint | symupy/utils/parser.py:278-320 | with unique ids, no vehicle is both downstream and upstream of the same vehicle |
| Queries.TiesAreExcluded | symupy/utils/parser.py:294-320 | with unique ids, a vehicle at exactly the same distance is neither downstream nor upstream (strict comparison) |
| Queries.NeighbourSymmetry | symupy/utils/parser.py:278-320 | with unique ids, u is downstream of v exactly when v is upstream of u |
| Request.EmptySnapshotAnswers | symupy/utils/parser.py:135-320 | with no vehicles, every tuple query is empty, every test is false, and neither neighbour query has a result |
| Request.FailedDecodingAnswersNothing | symupy/utils/parser.py:63-96 | a rejected buffer gives `{}` and no vehicles, so the property, occupancy and presence queries answer with nothing |
| Request.VehicleDataIsTransformed | symupy/utils/parser.py:84-133 | every field of every record `get_vehicle_data` returns is a canonical name |
| Request.DrivenAsWrittenNeverOnAnyResponse | symupy/utils/parser.py:261-276 | for every decodable response, `is_vehicle_driven` as written is false |
| Request.TwoVehicleProperties | tests/test_parser.py:204-211 | on the two-vehicle records, the ids are (0, 1) and the unknown `id` gives (None, None). Both vehicles are in the network (lines 303-310), and vehicle 0 is not driven (lines 376-380) |
| Request.TwoVehicleFilterBoth | tests/test_parser.py:274-275 | filtering `vehtype` on ids 0 and 1 gives ("VL", "VL") |
| Request.TwoVehicleFilterOne | tests/test_parser.py:266-267 | filtering `vehid` on id 1 gives (1,) |
| Request.TwoVehicleLinks | tests/test_parser.py:331-366 | `Zone_001` lane 1 holds (0, 1), lane 2 holds nothing, and vehicle 1 is in the link |
| Request.DownstreamOfRear | tests/test_parser.py:386-387 | vehicle 0 is downstream of vehicle 1 and is its only downstream neighbour |
| Request.DownstreamOfFront | tests/test_parser.py:389-390 | nothing is downstream of vehicle 0 |
| Request.UpstreamOfFront | tests/test_parser.py:396-397 | vehicle 1 is upstream of vehicle 0 and is its only upstream neighbour |
| Request.UpstreamOfRear | tests/test_parser.py:399-400 | nothing is upstream of vehicle 1 |
| Request.ForcedFixtureDiscrepancy | tests/test_parser.py:369-373 | on the forced fixture, the corrected query is true (as the test expects) and the query as written is false |
| Request.OneVehicleAttribute | tests/test_parser.py:78-94 | each attribute of the one-vehicle `TRAJ` converts to the value the expected record holds |
| Request.OneVehicleSize | tests/test_parser.py:168-173 | the one-vehicle record has ten fields |
| Request.OneVehicleIdentity | tests/test_parser.py:168-173 | the one-vehicle record has `vehid` 0 and `lane` 1 |
| Request.OneVehicleLink | tests/test_parser.py:168-173 | the one-vehicle record is on link `Zone_001` |
| Request.OneVehicleDistance | tests/test_parser.py:168-173 | the one-vehicle record is at distance 25.0 |
| Request.OneVehicleData | tests/test_parser.py:168-173 | `get_vehicle_data` on the one-vehicle response is a one-element list holding that record |
| PathText.Split | symupy/plugins/reader/symumaster.py:35 | `split` gives at least one piece, no piece contains the separator, and joining the pieces gives back the text |
| PathText.SplitJoin | symupy/plugins/reader/symumaster.py:35 | splitting undoes joining pieces that contain no separator |
| PathText.SplitAfterPiece | symupy/plugins/reader/symumaster.py:35 | the piece before the first separator is the first token |
| PathText.ClampIndex | symupy/plugins/reader/symumaster.py:39 | a slice bound, negative or not, is normalised into 0..len |
| PathText.TrimBoth | symupy/plugins/reader/symumaster.py:39 | `s[k:-k]` drops k items from each end, or everything when the list is no longer than 2k |
| PathText.EveryOther | symupy/plugins/reader/symumaster.py:39 | `[::2]` keeps ⌈n/2⌉ items, item i being the one at position 2i |
| PathText.InnerStride | symupy/plugins/reader/symumaster.py:39-42 | `s[k:-k][::2]` is items k, k+2, …, and how many of them there are |
| PathText.OddTokens | symupy/plugins/reader/symumaster.py:68-69 | `s[1:-1][::2]` equals the items at odd positions without the last item: (n - 1) / 2 of them for n ≥ 2, none otherwise, item i being the one at position 2i + 1 |
| PathText.OddTokensTwice | symupy/plugins/reader/symumaster.py:68-69 | applying `[1:-1][::2]` twice keeps every fourth item from position 3: ((n - 1) / 2 - 1) / 2 of them for n ≥ 3, none otherwise |
| SymuMaster.At | symupy/plugins/reader/symumaster.py:35 | reading a column succeeds exactly when the row has it and gives that cell. Otherwise it raises `KeyError` with the column label, carried as its decimal text where pandas reports the integer |
| SymuMaster.TruncateTowardZero | symupy/plugins/reader/symumaster.py:45 | `int` of a float truncates toward zero, for both signs |
| SymuMaster.PeriodHolds | symupy/plugins/reader/symumaster.py:44-45 | no period always holds. With a period, the test fails exactly when column 0 does not convert, and holds exactly when it converts to the period |
| SymuMaster.LoopHolds | symupy/plugins/reader/symumaster.py:47-48 | no loop always holds. With a loop, the test fails when column 1 does not convert, or when it equals the first loop value and column 2 does not convert. Every failure is a `ValueError`. It holds exactly when both columns convert to the loop values |
| SymuMaster.IntOf | symupy/plugins/reader/symumaster.py:45-48 | integers convert to themselves and floats are truncated. Text converts exactly when it parses, and then to the parsed number. `NaN` fails. Every failure is a `ValueError` |
| SymuMaster.MatchPath | symupy/plugins/reader/symumaster.py:35-42 | only an area path with fewer than 3 tokens raises `IndexError`. Otherwise the match is the origin/destination test and the links are those of the path |
| SymuMaster.PathLinksPositions | symupy/plugins/reader/symumaster.py:37-42 | a plain path's links are its tokens 1, 3, …, excluding the origin and destination. An area path's links are its tokens 3, 5, … |
| SymuMaster.ReadRow | symupy/plugins/reader/symumaster.py:33-54 | a missing column 7 raises `KeyError`. A non-text path cell is skipped. A kept row yields its links, and only kept rows yield links. The `AttributeError` that the loop catches never escapes. An area path of fewer than 3 tokens raises `IndexError` before any filter is read, and without `period` and `loop` that is the only failure. Once the path matches without error, the row fails exactly when the period or loop test fails to convert a cell, with a `ValueError` |
| SymuMaster.GetOD | symupy/plugins/reader/symumaster.py:31-56 | the scan succeeds exactly when every row reads. Otherwise the error is that of the first row that fails, every row before it reading. There are at most as many paths as rows |
| SymuMaster.GetODKeepsMatchingRows | symupy/plugins/reader/symumaster.py:31-56 | the paths are the links of exactly the rows kept, in row order |
| SymuMaster.GetODAppend | symupy/plugins/reader/symumaster.py:33-56 | scanning a concatenation is scanning the parts in turn: the first error wins, otherwise the paths are concatenated |
| SymuMaster.NonTextRowIsSkipped | symupy/plugins/reader/symumaster.py:53-54 | a row whose path cell is not text can be removed from anywhere without changing the result |
| SymuMaster.UnfilteredKeepsMatchingPaths | symupy/plugins/reader/symumaster.py:37-50 | with neither `period` nor `loop`, a text row is kept exactly when its path runs from the origin to the destination |
| SymuMaster.FirstRowOf | symupy/plugins/reader/symumaster.py:66 | finds the first row whose user column equals the user id as a number, and `None` when no row does |
| SymuMaster.UserTokens | symupy/plugins/reader/symumaster.py:66-67 | succeeds exactly when the frame has column 7, a row of that user exists, and its path cell is text. The result is that cell split on `\` |
| SymuMaster.GetPath | symupy/plugins/reader/symumaster.py:65-69 | succeeds exactly when the user's path cell can be read. The path never contains the area marker, and every link is a token of the cell. Its value is stated by `GetPathPlain` and `GetPathOfTrip` |
| SymuMaster.GetTrip | symupy/plugins/reader/symumaster.py:71-87 | the origin is the first token: a prefix of the cell with no separator, followed by a separator or by the cell's end. The destination is the last token: a suffix with no separator, preceded by a separator or by the cell's start. The path has (n - 1) / 2 links for n ≥ 2 tokens, link i being token 2i + 1. Departure is column 4. Arrival is `Undefined` exactly when column 5 holds that text, and otherwise that cell. The vehicle is the user id |
| SymuMaster.FinalLinks | symupy/plugins/reader/symumaster.py:67-69 | the links of `get_path` never contain the area marker, and each is a token of the cell |
| SymuMaster.FinalLinksPlain | symupy/plugins/reader/symumaster.py:67-69 | on a cell without the area marker, the links are tokens 3, 7, 11, …: ((n - 1) / 2 - 1) / 2 of them for n ≥ 3 tokens, none otherwise |
| SymuMaster.GetPathPlain | symupy/plugins/reader/symumaster.py:65-69 | for a user whose path cell has no area marker, `get_path` returns the cell's tokens 3, 7, 11, …, with that count |
| SymuMaster.GetPathOfTrip | symupy/plugins/reader/symumaster.py:65-87 | `get_path` and `get_trip` both succeed on the same users. The links of `get_path` are items 1, 3, … of the trip's path with the area marker dropped, and there are (m - 1) / 2 of them for m ≥ 2 such items |
| SymuMaster.TokensFrame | symupy/plugins/reader/symumaster.py:74-75 | the first token of a joined list is a prefix of the text that ends at a separator or at the text's end. The last token is a suffix that starts right after a separator or at the text's start |
| SymuMaster.TripAgreesWithGetOD | symupy/plugins/reader/symumaster.py:71-87 | for a plain path, the trip's path is the links `get_OD` reads from the same cell (lines 41-42), and its origin and destination are the pair that `get_OD` matches |
| SymuMaster.ColumnInts | symupy/plugins/reader/symumaster.py:104-106 | `astype(int)` succeeds exactly when every cell converts, keeps one value per row, and otherwise raises the error of the first cell that fails |
| SymuMaster.CollectMasked | symupy/plugins/reader/symumaster.py:110-112 | collection succeeds exactly when every selected row has a text path cell. Otherwise it raises `AttributeError` |
| SymuMaster.FilterColumns | symupy/plugins/reader/symumaster.py:103-106 | the filter columns in use convert exactly when every cell of them converts, giving one value per row. Otherwise the error is a `ValueError` |
| SymuMaster.DistMask | symupy/plugins/reader/symumaster.py:102-106 | the mask has one entry per row, true exactly for the rows the reader keeps |
| SymuMaster.CollectMaskedIsFilter | symupy/plugins/reader/symumaster.py:102-112 | along a mask that agrees with the row test, the result is the links of exactly the kept rows, in order |
| SymuMaster.DistributionGetOD | symupy/plugins/reader/symumaster.py:99-114 | a frame without column 8 raises `IndexError`. On success, the paths are the links (tokens 4, 6, … inside the trimmed cell) of exactly the rows kept, in order, and every kept row has a text path cell. It succeeds exactly when the filter columns in use convert on every row and every kept row has a text path cell. A column that does not convert raises `ValueError`, and otherwise the only failure is `AttributeError` |

## Left out

- XML decoding (`xmltodict.parse`, `ExpatError`): the decoder's outcome is an input (`Snapshot.Decoding`). Decoding details such as attribute order and entity handling are not modelled.
- The string buffer (`create_string_buffer`, the `query` property), `__repr__`, `__str__`, `current_time` and `current_nbveh`: these are I/O and formatting, with no logic beyond a dictionary lookup.
- `create_vehicle_list`, `update_vehicle_list`, `vehicles`, `__contains__` and the `Publisher` base class: they hand the records to `VehicleList`/`Vehicle` in symupy/components, which is not part of this model.
- The `FIELD_DATA` and `FIELD_FORMAT` tables live in symupy/utils/constants.py, which is not part of this model. Ten of the eleven entries are reconstructed from the `transform` docstring and the expected records of the tests. The name `drive_state` for `@etat_pilotage` is chosen here, and that field is kept as text.
- Numerals.ParseInt and Numerals.ParseFloat: they do not model whitespace, `_` separators, exponents, `inf`/`nan`, non-ASCII decimal digits (such as Arabic-Indic digits), or binary floating-point rounding. Texts in those forms are rejected here, although Python accepts them. `float` is modelled as the exact decimal value.
- Queries.DownstreamOf and Queries.UpstreamOf: they return sets. The tuple order of the source, which follows Python's set iteration order, is not modelled.
- Queries.DownstreamOf and Queries.UpstreamOf: they do not model the `TypeError` that `vehids.difference(set(vehid))` (parser.py:290 and 312) raises on an integer id. They also take vehicles on every lane of the link, while the nearest existing helper, `vehicles_in_link(link)`, only looks at lane 1 by default.
- Snapshot.GetVehicleData: a `TRAJS` element that holds only text makes `veh_data["TRAJ"]` raise `TypeError`, which is not modelled.
- Queries.IsVehicleInLink: it models the membership its tests expect, not the `TypeError` that `set(veh)` raises on an `int`.
- The commented-out helpers `query_vehicle_link`, `query_vehicle_position` and `query_vehicle_data_dict` (parser.py:170-210): they are dead code. Only their role inside the neighbour queries is modelled (`Queries.Anchor`).
- The pandas CSV loading in the reader constructors (`read_csv` with `sep=';'`, `skiprows=1`): a frame is an input, and the model assumes it is rectangular.
- `Date` conversion in `get_trip`: departure and arrival keep the raw cell. `Path`/`Trip` construction is a plain record.
- The `__main__` block of symumaster.py: it refers to a class that does not exist and reads local files.
- api/connector.py, symupy/plugins/reader/symuvia.py and symupy/cli/cli.py are not part of this model.

## Findings

| source | as written | input that shows it | evidently intended | confidence | as-written member | corrected member |
|---|---|---|---|---|---|---|
| symupy/utils/parser.py:270-274 | `is_vehicle_driven` looks up the raw names `@id` and `@etat_pilotage` on records that `transform` has already renamed, so neither lookup ever matches | the one-vehicle forced fixture (tests/test_parser.py:47-51, 369-373): the answer is false, and the test expects true | look up the renamed fields: the record's `vehid` equals the id and its driving mode is `force (ecoulement respecte)` | not executed | Queries.IsVehicleDrivenAsWritten (Queries.DrivenAsWrittenIsNeverTrue, Request.ForcedFixtureDiscrepancy) | Queries.IsVehicleDriven |

=== FILE: numerals.dfy ===
/** Python's `int(s)` and `float(s)` on the attribute strings of a snapshot,
    and the renderings the engine and `str` produce, so that parsing can be
    stated as the inverse of rendering.  Numbers are exact: `float` is parsed
    to the `real` the decimal text denotes, without binary rounding. */
module Numerals {
  import opened Wrappers

  predicate IsDigit(c: char) { '0' <= c <= '9' }

  predicate AllDigits(s: string) { forall i :: 0 <= i < |s| ==> IsDigit(s[i]) }

  function DigitValue(c: char): (d: nat)
    requires IsDigit(c)
    ensures d < 10
  {
    c as int - '0' as int
  }

  function DigitChar(d: nat): (c: char)
    requires d < 10
    ensures IsDigit(c) && DigitValue(c) == d
  {
    ('0' as int + d) as char
  }

  /** The value of a string of decimal digits, most significant digit first. */
  function DigitsValue(s: string): nat
    requires AllDigits(s)
  {
    if s == [] then 0 else 10 * DigitsValue(s[..|s| - 1]) + DigitValue(s[|s| - 1])
  }

  function Pow10(k: nat): (r: nat)
    ensures r >= 1
  {
    if k == 0 then 1 else 10 * Pow10(k - 1)
  }

  /** `str(n)` for a non-negative `n`: its digits without leading zeros. */
  function NatToString(n: nat): (r: string)
    ensures |r| >= 1 && AllDigits(r)
    ensures r[0] == '0' ==> n == 0 && r == "0"
  {
    if n < 10 then [DigitChar(n)] else NatToString(n / 10) + [DigitChar(n % 10)]
  }

  /** `str(n)` */
  function IntToString(n: int): string
  {
    if n < 0 then "-" + NatToString(-n) else NatToString(n)
  }

  /** The canonical spelling `str` produces: no `+`, no leading zero, no `-0`. */
  predicate Canonical(s: string)
  {
    var digits := if |s| > 0 && s[0] == '-' then s[1..] else s;
    && |digits| >= 1
    && AllDigits(digits)
    && (digits[0] == '0' ==> digits == "0" && digits == s)
  }

  /** Splits an optional leading sign off: (is it a minus sign, the rest). */
  function SplitSign(s: string): (bool, string)
  {
    if |s| > 0 && (s[0] == '-' || s[0] == '+') then (s[0] == '-', s[1..]) else (false, s)
  }

  /** `int(s)`: an optional sign followed by one or more digits; `None` stands
      for the `ValueError` Python raises on anything else. */
  function ParseInt(s: string): (r: Option<int>)
    ensures r.Some? ==> |s| >= 1 && (IsDigit(s[0]) || s[0] == '-' || s[0] == '+')
    ensures r.Some? && r.value < 0 ==> s[0] == '-'
  {
    var (negative, digits) := SplitSign(s);
    if |digits| >= 1 && AllDigits(digits) then
      var v: int := DigitsValue(digits);
      Some(if negative then -v else v)
    else None
  }

  /** The position of the first `c` in `s`, if any. */
  function IndexOf(s: string, c: char): (r: Option<nat>)
    ensures r.Some? ==> r.value < |s| && s[r.value] == c && c !in s[..r.value]
    ensures r.None? ==> c !in s
  {
    if s == [] then None
    else if s[0] == c then Some(0)
    else match IndexOf(s[1..], c)
      case None => None
      case Some(k) => assert s[1..][..k] == s[1..k + 1]; Some(k + 1)
  }

  /** The value of `whole.fraction` in decimal. */
  function DecimalValue(whole: string, fraction: string): real
    requires AllDigits(whole) && AllDigits(fraction)
  {
    DigitsValue(whole) as real + DigitsValue(fraction) as real / Pow10(|fraction|) as real
  }

  /** The digits before and after the first point of `body` (no point: all
      of it is the integer part). */
  function SplitPoint(body: string): (string, string)
  {
    match IndexOf(body, '.')
    case None => (body, "")
    case Some(k) => (body[..k], body[k + 1..])
  }

  /** `float` on unsigned decimal text: digits, and an optional point followed
      by digits, with at least one digit in all. */
  function ParseUnsignedFloat(body: string): Option<real>
  {
    var (whole, fraction) := SplitPoint(body);
    if AllDigits(whole) && AllDigits(fraction) && |whole| + |fraction| >= 1 then
      Some(DecimalValue(whole, fraction))
    else None
  }

  /** `float(s)` on decimal text, with an optional sign. */
  function ParseFloat(s: string): (r: Option<real>)
    ensures r.Some? ==> |s| >= 1
  {
    var (negative, body) := SplitSign(s);
    match ParseUnsignedFloat(body)
    case None => None
    case Some(x) => Some(if negative then -x else x)
  }

  /** Text `int` accepts: an optional sign, then one or more digits. */
  predicate IntegerText(s: string)
  {
    && |s| >= 1
    && (IsDigit(s[0]) || s[0] == '-' || s[0] == '+')
    && (forall i :: 1 <= i < |s| ==> IsDigit(s[i]))
    && exists i :: 0 <= i < |s| && IsDigit(s[i])
  }

  /** `ParseInt` accepts exactly the integer texts: anything else, such as
      `""`, `"-"`, `"5a"` or `"1.5"`, is a `ValueError`. */
  lemma ParseIntAccepts(s: string)
    ensures ParseInt(s).Some? <==> IntegerText(s)
  {
    var (negative, digits) := SplitSign(s);
    if |s| > 0 && (s[0] == '-' || s[0] == '+') {
      assert digits == s[1..];
      assert forall i :: 1 <= i < |s| ==> s[i] == digits[i - 1];
      if IntegerText(s) {
        var i :| 0 <= i < |s| && IsDigit(s[i]);
        assert i >= 1 && IsDigit(digits[i - 1]);
      }
    } else {
      assert digits == s;
      if ParseInt(s).Some? {
        assert IsDigit(s[0]);
      }
    }
  }

  /** The text after an optional leading sign. */
  function Unsigned(s: string): string
  {
    SplitSign(s).1
  }

  /** Text `float` accepts here: an optional sign, then digits with at most
      one point among them and at least one digit. */
  predicate DecimalText(s: string)
  {
    var body := Unsigned(s);
    && (forall i :: 0 <= i < |body| ==> IsDigit(body[i]) || body[i] == '.')
    && (forall i, j :: 0 <= i < j < |body| && body[i] == '.' ==> body[j] != '.')
    && exists i :: 0 <= i < |body| && IsDigit(body[i])
  }

  /** `ParseFloat` accepts exactly the decimal texts: `"1.2.3"`, `"1.5x"`,
      `"."` and `""` are a `ValueError`. */
  lemma ParseFloatAccepts(s: string)
    ensures ParseFloat(s).Some? <==> DecimalText(s)
  {
    var body := Unsigned(s);
    assert ParseFloat(s).Some? <==> ParseUnsignedFloat(body).Some?;
    match IndexOf(body, '.')
    case None =>
      assert SplitPoint(body) == (body, "");
      if DecimalText(s) {
        assert AllDigits(body);
      }
    case Some(k) =>
      var (whole, fraction) := (body[..k], body[k + 1..]);
      assert SplitPoint(body) == (whole, fraction);
      assert forall i :: 0 <= i < k ==> body[i] == whole[i];
      assert forall i :: k < i < |body| ==> body[i] == fraction[i - k - 1];
      if DecimalText(s) {
        forall i | 0 <= i < |fraction| ensures IsDigit(fraction[i]) {
          assert body[k + 1 + i] == fraction[i];
        }
        var d :| 0 <= d < |body| && IsDigit(body[d]);
        assert d != k;
      }
      if ParseUnsignedFloat(body).Some? {
        assert AllDigits(whole) && AllDigits(fraction);
        if |whole| >= 1 {
          assert IsDigit(body[0]);
        } else {
          assert IsDigit(body[k + 1]);
        }
      }
  }

  /** The engine's two-decimal rendering of `cents / 100` (`"44.12"`, `"-2.00"`). */
  function Fixed2(cents: int): string
  {
    var m := if cents < 0 then -cents else cents;
    (if cents < 0 then "-" else "")
      + NatToString(m / 100) + "." + [DigitChar(m % 100 / 10), DigitChar(m % 10)]
  }

  // ---------------------------------------------------------------------------
  // Parsing inverts rendering.

  lemma {:induction false} DigitsValueOfNatToString(n: nat)
    ensures DigitsValue(NatToString(n)) == n
  {
    if n >= 10 {
      var s := NatToString(n);
      assert s[..|s| - 1] == NatToString(n / 10);
      DigitsValueOfNatToString(n / 10);
    }
  }

  /** Digits without a leading zero denote a number at least `10^(len-1)`. */
  lemma {:induction false} DigitsValueLowerBound(s: string)
    requires |s| >= 1 && AllDigits(s) && s[0] != '0'
    ensures DigitsValue(s) >= Pow10(|s| - 1)
  {
    if |s| > 1 {
      var p := s[..|s| - 1];
      assert p[0] == s[0];
      DigitsValueLowerBound(p);
    }
  }

  /** `k` digits denote less than `10^k`. */
  lemma {:induction false} DigitsValueUpperBound(s: string)
    requires AllDigits(s)
    ensures DigitsValue(s) < Pow10(|s|)
  {
    if s != [] {
      var p := s[..|s| - 1];
      DigitsValueUpperBound(p);
      assert DigitsValue(s) == 10 * DigitsValue(p) + DigitValue(s[|s| - 1]);
      assert Pow10(|s|) == 10 * Pow10(|p|);
    }
  }

  lemma {:induction false} NatToStringOfDigitsValue(s: string)
    requires |s| >= 1 && AllDigits(s) && (s[0] == '0' ==> s == "0")
    ensures NatToString(DigitsValue(s)) == s
  {
    var n := DigitsValue(s);
    if |s| == 1 {
      assert s[..|s| - 1] == [];
      assert n == 10 * DigitsValue(s[..|s| - 1]) + DigitValue(s[|s| - 1]);
      assert n == DigitValue(s[0]) < 10;
      assert DigitChar(n) == s[0];
    } else {
      var p := s[..|s| - 1];
      assert p[0] == s[0];
      DigitsValueLowerBound(p);
      assert n / 10 == DigitsValue(p) && n % 10 == DigitValue(s[|s| - 1]);
      NatToStringOfDigitsValue(p);
      assert DigitChar(n % 10) == s[|s| - 1];
      assert s == p + [s[|s| - 1]];
    }
  }

  /** `int(str(n)) == n` for every integer. */
  lemma ParseIntOfIntToString(n: int)
    ensures ParseInt(IntToString(n)) == Some(n)
  {
    var m := if n < 0 then -n else n;
    var d := NatToString(m);
    DigitsValueOfNatToString(m);
    if n < 0 {
      assert IntToString(n)[1..] == d;
    } else {
      assert d[0] != '-' && d[0] != '+';
    }
  }

  /** `str(int(s)) == s` for every canonical integer text: the two are inverse. */
  lemma CanonicalIntRoundTrip(s: string)
    requires Canonical(s)
    ensures ParseInt(s).Some?
    ensures IntToString(ParseInt(s).value) == s
  {
    if s[0] == '-' {
      var d := s[1..];
      NatToStringOfDigitsValue(d);
      assert DigitsValue(d) != 0;
      assert s == "-" + d;
    } else {
      NatToStringOfDigitsValue(s);
    }
  }

  /** `float(str(n)) == n` for every integer. */
  lemma ParseFloatOfIntToString(n: int)
    ensures ParseFloat(IntToString(n)) == Some(n as real)
  {
    var m := if n < 0 then -n else n;
    var d := NatToString(m);
    DigitsValueOfNatToString(m);
    ParseUnsignedOfDigits(d);
    ParseFloatOfSigned(n < 0, d);
    assert IntToString(n) == (if n < 0 then "-" else "") + d;
  }

  /** An optional minus sign in front of text starting with a digit negates
      the unsigned reading. */
  lemma ParseFloatOfSigned(negative: bool, body: string)
    requires |body| >= 1 && IsDigit(body[0]) && ParseUnsignedFloat(body).Some?
    ensures var x := ParseUnsignedFloat(body).value;
      ParseFloat((if negative then "-" else "") + body) == Some(if negative then -x else x)
  {
    var text := (if negative then "-" else "") + body;
    if negative {
      assert text[1..] == body;
    } else {
      assert text == body;
    }
    assert SplitSign(text) == (negative, body);
  }

  /** Digits without a point parse to their integer value. */
  lemma ParseUnsignedOfDigits(d: string)
    requires |d| >= 1 && AllDigits(d)
    ensures ParseUnsignedFloat(d) == Some(DigitsValue(d) as real)
  {
    assert '.' !in d by {
      forall i | 0 <= i < |d| ensures d[i] != '.' { assert IsDigit(d[i]); }
    }
    assert IndexOf(d, '.') == None;
    assert SplitPoint(d) == (d, "");
    assert DecimalValue(d, "") == DigitsValue(d) as real by {
      assert DigitsValue("") == 0 && Pow10(0) == 1;
    }
  }

  /** The rendering is a sign, the whole part, a point and two digits. */
  lemma Fixed2Parts(cents: int)
    ensures var m := if cents < 0 then -cents else cents;
      Fixed2(cents) == (if cents < 0 then "-" else "")
        + (NatToString(m / 100) + "." + [DigitChar(m % 100 / 10), DigitChar(m % 10)])
  {
  }

  /** `float` reads back exactly the value the engine rendered with two decimals. */
  lemma ParseFloatOfFixed2(cents: int)
    ensures ParseFloat(Fixed2(cents)) == Some(cents as real / 100.0)
  {
    var m := if cents < 0 then -cents else cents;
    Fixed2Parts(cents);
    ParseFloatOfDecimal(cents < 0, NatToString(m / 100), [DigitChar(m % 100 / 10), DigitChar(m % 10)]);
    TwoDigitsValue(m);
  }

  /** The value of `str(m // 100) + "." + two digits of m % 100` is `m / 100`. */
  lemma TwoDigitsValue(m: nat)
    ensures DecimalValue(NatToString(m / 100), [DigitChar(m % 100 / 10), DigitChar(m % 10)])
         == m as real / 100.0
  {
    var fraction := [DigitChar(m % 100 / 10), DigitChar(m % 10)];
    DigitsValueOfNatToString(m / 100);
    assert fraction[..1] == [DigitChar(m % 100 / 10)];
    assert fraction[..1][..0] == [];
    assert DigitsValue(fraction[..1]) == m % 100 / 10;
    assert DigitsValue(fraction) == 10 * (m % 100 / 10) + m % 10;
    assert DigitsValue(fraction) == m % 100;
    assert Pow10(2) == 100;
    assert m == 100 * (m / 100) + m % 100;
  }

  /** Decimal text with an integer part and a point parses to its value. */
  lemma ParseFloatOfDecimal(negative: bool, whole: string, fraction: string)
    requires |whole| >= 1 && AllDigits(whole) && AllDigits(fraction)
    ensures var x := DecimalValue(whole, fraction);
      ParseFloat((if negative then "-" else "") + (whole + "." + fraction))
        == Some(if negative then -x else x)
  {
    var body := whole + "." + fraction;
    ParseUnsignedOfDecimal(whole, fraction);
    assert body[0] == whole[0] && IsDigit(whole[0]);
    ParseFloatOfSigned(negative, body);
  }

  lemma ParseUnsignedOfDecimal(whole: string, fraction: string)
    requires |whole| >= 1 && AllDigits(whole) && AllDigits(fraction)
    ensures ParseUnsignedFloat(whole + "." + fraction) == Some(DecimalValue(whole, fraction))
  {
    var body := whole + "." + fraction;
    assert '.' !in whole by {
      forall i | 0 <= i < |whole| ensures whole[i] != '.' { assert IsDigit(whole[i]); }
    }
    IndexOfAfterPrefix(whole, "." + fraction, '.');
    assert body[..|whole|] == whole && body[|whole| + 1..] == fraction;
    assert SplitPoint(body) == (whole, fraction);
  }

  lemma {:induction false} IndexOfAfterPrefix(p: string, rest: string, c: char)
    requires c !in p && |rest| >= 1 && rest[0] == c
    ensures IndexOf(p + rest, c) == Some(|p|)
  {
    if p != [] {
      assert (p + rest)[1..] == p[1..] + rest;
      IndexOfAfterPrefix(p[1..], rest, c);
    }
  }
}

=== FILE: pathtext.dfy ===
/** The Python string and list operations the SymuMaster readers apply to a
    path cell: `str.split`, slicing with negative bounds, and `[::2]`. */
module PathText {

  /** The separator of a path cell, a single backslash. */
  const Sep := '\\'

  /** `sep.join(parts)` */
  function Join(parts: seq<string>, sep: char): string
    requires |parts| >= 1
  {
    if |parts| == 1 then parts[0] else parts[0] + [sep] + Join(parts[1..], sep)
  }

  /** `s.split(sep)`: the maximal pieces between separators, at least one. */
  function Split(s: string, sep: char): (r: seq<string>)
    ensures |r| >= 1
    ensures forall i :: 0 <= i < |r| ==> sep !in r[i]
    ensures Join(r, sep) == s
  {
    if s == [] then [""]
    else
      var rest := Split(s[1..], sep);
      if s[0] == sep then
        assert ([""] + rest)[1..] == rest;
        [""] + rest
      else
        var r := [[s[0]] + rest[0]] + rest[1..];
        assert r[1..] == rest[1..];
        assert |rest| > 1 ==> rest == [rest[0]] + rest[1..] && Join(rest, sep) == rest[0] + [sep] + Join(rest[1..], sep);
        r
  }

  /** Splitting the prefix before a separator off a string. */
  lemma {:induction false} SplitAfterPiece(p: string, rest: string, sep: char)
    requires sep !in p
    ensures Split(p + [sep] + rest, sep) == [p] + Split(rest, sep)
  {
    if p == [] {
      assert p + [sep] + rest == [sep] + rest;
      assert ([sep] + rest)[1..] == rest;
    } else {
      assert (p + [sep] + rest)[1..] == p[1..] + [sep] + rest;
      SplitAfterPiece(p[1..], rest, sep);
      assert [p[0]] + p[1..] == p;
    }
  }

  /** A string without separator is one piece. */
  lemma {:induction false} SplitWithoutSep(p: string, sep: char)
    requires sep !in p
    ensures Split(p, sep) == [p]
  {
    if p != [] {
      SplitWithoutSep(p[1..], sep);
      assert [p[0]] + p[1..] == p;
    }
  }

  /** Splitting undoes joining pieces that contain no separator. */
  lemma {:induction false} SplitJoin(parts: seq<string>, sep: char)
    requires |parts| >= 1
    requires forall i :: 0 <= i < |parts| ==> sep !in parts[i]
    ensures Split(Join(parts, sep), sep) == parts
  {
    if |parts| == 1 {
      SplitWithoutSep(parts[0], sep);
    } else {
      SplitJoin(parts[1..], sep);
      SplitAfterPiece(parts[0], Join(parts[1..], sep), sep);
      assert [parts[0]] + parts[1..] == parts;
    }
  }

  /** Python's normalisation of a slice bound against a length `n`. */
  function ClampIndex(x: int, n: nat): (r: nat)
    ensures r <= n
  {
    if x < 0 then (if x + n < 0 then 0 else x + n) else if x > n then n else x
  }

  /** `s[lo:hi]` */
  function PySlice<T>(s: seq<T>, lo: int, hi: int): seq<T>
  {
    var a := ClampIndex(lo, |s|);
    var b := ClampIndex(hi, |s|);
    if a < b then s[a..b] else []
  }

  /** `s[k:-k]` drops `k` items from both ends, or everything when there
      are not enough. */
  lemma TrimBoth<T>(s: seq<T>, k: int)
    requires k >= 1
    ensures |s| >= 2 * k ==> PySlice(s, k, -k) == s[k..|s| - k]
    ensures |s| <= 2 * k ==> PySlice(s, k, -k) == []
  {
  }

  /** `s[::2]`: the items at even positions. */
  function EveryOther<T>(s: seq<T>): (r: seq<T>)
    ensures |r| == (|s| + 1) / 2
    ensures forall i :: 0 <= i < |r| ==> r[i] == s[2 * i]
  {
    if |s| <= 1 then s
    else
      var rest := EveryOther(s[2..]);
      assert forall i :: 1 <= i < |rest| + 1 ==> s[2..][2 * (i - 1)] == s[2 * i];
      [s[0]] + rest
  }

  /** `s[k:-k][::2]`: the items `k`, `k + 2`, ... that stay clear of the last
      `k` positions. */
  lemma InnerStride<T>(s: seq<T>, k: int)
    requires k >= 1
    ensures var r := EveryOther(PySlice(s, k, -k));
      && (|s| >= 2 * k ==> |r| == (|s| - 2 * k + 1) / 2)
      && (|s| <= 2 * k ==> r == [])
      && forall i :: 0 <= i < |r| ==> k + 2 * i < |s| - k && r[i] == s[k + 2 * i]
  {
    TrimBoth(s, k);
  }

  /** The items at odd positions, the last item left out. */
  function OddItems<T>(s: seq<T>): seq<T>
  {
    seq(if |s| >= 2 then (|s| - 1) / 2 else 0, i requires 0 <= i < (|s| - 1) / 2 => s[1 + 2 * i])
  }

  /** `tokens[1:-1][::2]`: the items at odd positions, the last one left out. */
  function OddTokens<T>(tokens: seq<T>): (r: seq<T>)
    ensures r == OddItems(tokens)
    ensures |tokens| >= 2 ==> |r| == (|tokens| - 1) / 2
    ensures |tokens| < 2 ==> r == []
    ensures forall i :: 0 <= i < |r| ==> 1 + 2 * i < |tokens| - 1 && r[i] == tokens[1 + 2 * i]
  {
    InnerStride(tokens, 1);
    EveryOther(PySlice(tokens, 1, -1))
  }

  /** `s[1:-1][::2][1:-1][::2]`: every fourth item, starting with the fourth. */
  lemma OddTokensTwice<T>(s: seq<T>)
    ensures var path := OddTokens(OddTokens(s));
      && (|s| >= 3 ==> |path| == ((|s| - 1) / 2 - 1) / 2)
      && (|s| < 3 ==> path == [])
      && forall i :: 0 <= i < |path| ==> 3 + 4 * i < |s| && path[i] == s[3 + 4 * i]
  {
    var odd := OddItems(s);
    var path := OddItems(odd);
    if |s| >= 3 {
      assert |odd| == (|s| - 1) / 2;
    }
    forall i | 0 <= i < |path| ensures 3 + 4 * i < |s| && path[i] == s[3 + 4 * i] {
      assert path[i] == odd[1 + 2 * i];
    }
  }
}

=== FILE: queries.dfy ===
/** The queries `SimulatorRequest` answers over the records of the current
    response (symupy/utils/parser.py).  Each takes the list
    `get_vehicle_data()` returned; a response that fails to decode or
    convert never reaches them (see `Request`). */
module Queries {
  import opened Wrappers
  import opened Records
  import opened Schema
  import Seqs

  /** `vehicles_in_link`'s default lane, which `is_vehicle_in_link` inherits. */
  const DefaultLane := 1

  function VehidOf(rec: Record): Value { Get(rec, "vehid") }

  /** The record carries the integer id `id`. */
  predicate HasId(rec: Record, id: int) { VehidOf(rec) == Int(id) }

  /** The record's id is one of `ids`. */
  predicate HasIdIn(rec: Record, ids: seq<int>)
  {
    VehidOf(rec).Int? && VehidOf(rec).i in ids
  }

  /** Some record of the snapshot carries the id `id`. */
  predicate Present(vehs: seq<Record>, id: int)
  {
    exists i :: 0 <= i < |vehs| && HasId(vehs[i], id)
  }

  /** The record lies on `(link, lane)`. */
  predicate OnLane(rec: Record, link: string, lane: int)
  {
    Get(rec, "link") == Str(link) && Get(rec, "lane") == Int(lane)
  }

  /** `get_vehicles_property(p)`: one value per vehicle in snapshot order,
      `None` where the record has no such field. */
  function GetVehiclesProperty(vehs: seq<Record>, p: string): (r: seq<Value>)
    ensures |r| == |vehs|
    ensures forall i :: 0 <= i < |vehs| ==> r[i] == Get(vehs[i], p)
  {
    if vehs == [] then [] else [Get(vehs[0], p)] + GetVehiclesProperty(vehs[1..], p)
  }

  /** A field no record has reads as `None` for every vehicle. */
  lemma AbsentPropertyIsNull(vehs: seq<Record>, p: string)
    requires forall i :: 0 <= i < |vehs| ==> p !in vehs[i]
    ensures forall v :: v in GetVehiclesProperty(vehs, p) ==> v == Null
    ensures |GetVehiclesProperty(vehs, p)| == |vehs|
  {
  }

  /** The ids in the snapshot, as the set `set(get_vehicles_property("vehid"))`. */
  function IdValues(vehs: seq<Record>): (r: set<Value>)
    ensures forall i :: 0 <= i < |vehs| ==> VehidOf(vehs[i]) in r
    ensures forall v :: v in r ==> exists i :: 0 <= i < |vehs| && VehidOf(vehs[i]) == v
  {
    var all := GetVehiclesProperty(vehs, "vehid");
    set v | v in all
  }

  /** `p` of the records whose id is in `wanted`, in snapshot order. */
  function PropertyWhereIdIn(vehs: seq<Record>, p: string, wanted: set<Value>): seq<Value>
  {
    if vehs == [] then []
    else
      (if VehidOf(vehs[0]) in wanted then [Get(vehs[0], p)] else [])
        + PropertyWhereIdIn(vehs[1..], p, wanted)
  }

  /** Filtering by a set that agrees with `ids` on every record of the
      snapshot is filtering by `ids`. */
  lemma {:induction false} PropertyWhereIdInIsFilter(vehs: seq<Record>, p: string, wanted: set<Value>, ids: seq<int>)
    requires forall i :: 0 <= i < |vehs| ==> (VehidOf(vehs[i]) in wanted <==> HasIdIn(vehs[i], ids))
    ensures PropertyWhereIdIn(vehs, p, wanted)
         == GetVehiclesProperty(Seqs.Filter(vehs, rec => HasIdIn(rec, ids)), p)
  {
    if vehs != [] {
      PropertyWhereIdInIsFilter(vehs[1..], p, wanted, ids);
      assert vehs == [vehs[0]] + vehs[1..];
      Seqs.FilterAppend([vehs[0]], vehs[1..], rec => HasIdIn(rec, ids));
      var head := Seqs.Filter([vehs[0]], rec => HasIdIn(rec, ids));
      var tail := Seqs.Filter(vehs[1..], rec => HasIdIn(rec, ids));
      assert [vehs[0]][1..] == [];
      PropertyAppend(head, tail, p);
    }
  }

  lemma {:induction false} PropertyAppend(a: seq<Record>, b: seq<Record>, p: string)
    ensures GetVehiclesProperty(a + b, p) == GetVehiclesProperty(a, p) + GetVehiclesProperty(b, p)
  {
  }

  /** `filter_vehicle_property(p, *ids)`: with no ids, every vehicle's `p`;
      otherwise `p` of exactly the vehicles whose id is among `ids`, in
      snapshot order.  The source intersects `ids` with the ids present
      first; ids absent from the snapshot contribute nothing either way. */
  function FilterVehicleProperty(vehs: seq<Record>, p: string, ids: seq<int>): (r: seq<Value>)
    ensures ids == [] ==> r == GetVehiclesProperty(vehs, p)
    ensures ids != [] ==> r == GetVehiclesProperty(Seqs.Filter(vehs, rec => HasIdIn(rec, ids)), p)
    ensures |r| <= |vehs|
  {
    if ids != [] then
      var requested := set a | a in ids :: Int(a);
      var finIds := IdValues(vehs) * requested;
      PropertyWhereIdInIsFilter(vehs, p, finIds, ids);
      PropertyWhereIdIn(vehs, p, finIds)
    else GetVehiclesProperty(vehs, p)
  }

  /** `is_vehicle_in_network(vehid, *others)`: one id is a membership test;
      several ids hold only if every one of them is present. */
  function IsVehicleInNetwork(vehs: seq<Record>, vehid: int, others: seq<int>): (r: bool)
    ensures r <==> Present(vehs, vehid) && forall k :: 0 <= k < |others| ==> Present(vehs, others[k])
  {
    var all := GetVehiclesProperty(vehs, "vehid");
    assert forall a :: Int(a) in all <==> Present(vehs, a) by {
      forall a ensures Int(a) in all <==> Present(vehs, a) {
        if Int(a) in all {
          var i :| 0 <= i < |all| && all[i] == Int(a);
          assert HasId(vehs[i], a);
        }
      }
    }
    if others == [] then Int(vehid) in all
    else
      var ids := [vehid] + others;
      var requested := set a | a in ids :: Int(a);
      var present := set v | v in all;
      assert requested <= present <==> forall a :: a in ids ==> Present(vehs, a) by {
        if requested <= present {
          forall a | a in ids ensures Present(vehs, a) { assert Int(a) in requested; }
        }
      }
      assert (forall a :: a in ids ==> Present(vehs, a))
          <==> Present(vehs, vehid) && forall k :: 0 <= k < |others| ==> Present(vehs, others[k]) by {
        assert ids[0] == vehid;
        assert forall k :: 0 <= k < |others| ==> ids[k + 1] == others[k];
      }
      requested <= present
  }

  /** The multi-id form is the conjunction of the single-id forms: set
      semantics, so order and repetition of the ids do not matter. */
  lemma InNetworkIsConjunction(vehs: seq<Record>, vehid: int, others: seq<int>)
    ensures IsVehicleInNetwork(vehs, vehid, others)
        <==> (IsVehicleInNetwork(vehs, vehid, [])
              && forall k :: 0 <= k < |others| ==> IsVehicleInNetwork(vehs, others[k], []))
  {
  }

  /** `vehicles_in_link(link, lane)`: the ids of the records on exactly that
      link and lane, in snapshot order. */
  function VehiclesInLink(vehs: seq<Record>, link: string, lane: int): (r: seq<Value>)
    ensures |r| <= |vehs|
    ensures forall v :: v in r <==>
      exists i :: 0 <= i < |vehs| && OnLane(vehs[i], link, lane) && VehidOf(vehs[i]) == v
  {
    if vehs == [] then []
    else
      var rest := VehiclesInLink(vehs[1..], link, lane);
      assert forall i :: 1 <= i < |vehs| ==> vehs[i] == vehs[1..][i - 1];
      (if OnLane(vehs[0], link, lane) then [VehidOf(vehs[0])] else []) + rest
  }

  /** Occupancy keeps snapshot order: the vehicles of a concatenation are
      those of the first part followed by those of the second. */
  lemma {:induction false} VehiclesInLinkAppend(a: seq<Record>, b: seq<Record>, link: string, lane: int)
    ensures VehiclesInLink(a + b, link, lane) == VehiclesInLink(a, link, lane) + VehiclesInLink(b, link, lane)
  {
    if a == [] {
      assert a + b == b;
    } else {
      assert (a + b)[0] == a[0];
      assert (a + b)[1..] == a[1..] + b;
      VehiclesInLinkAppend(a[1..], b, link, lane);
    }
  }

  /** A vehicle is listed on at most one lane of a link. */
  lemma LanesAreDisjoint(vehs: seq<Record>, link: string, lane1: int, lane2: int, id: int)
    requires lane1 != lane2
    requires forall i, j :: 0 <= i < |vehs| && 0 <= j < |vehs| && i != j && HasId(vehs[i], id) ==> !HasId(vehs[j], id)
    ensures !(Int(id) in VehiclesInLink(vehs, link, lane1) && Int(id) in VehiclesInLink(vehs, link, lane2))
  {
  }

  /** `is_vehicle_in_link(veh, link)` as its tests exercise it: `veh` is
      among `vehicles_in_link(link)`, that is on the default lane. */
  function IsVehicleInLink(vehs: seq<Record>, veh: int, link: string): (r: bool)
    ensures r <==> exists i :: 0 <= i < |vehs| && HasId(vehs[i], veh) && OnLane(vehs[i], link, DefaultLane)
    ensures r ==> IsVehicleInNetwork(vehs, veh, [])
  {
    Int(veh) in VehiclesInLink(vehs, link, DefaultLane)
  }

  /** The driving-mode field of a transformed record. */
  const DriveState := "drive_state"

  /** `any(...)` over the records with id `v`, of their mode being forced. */
  function AnyForced(vehs: seq<Record>, v: int): (r: bool)
    ensures r <==> exists i :: 0 <= i < |vehs| && HasId(vehs[i], v) && Get(vehs[i], DriveState) == Str(Forced)
  {
    if vehs == [] then false
    else
      assert forall i :: 1 <= i < |vehs| ==> vehs[i] == vehs[1..][i - 1];
      (HasId(vehs[0], v) && Get(vehs[0], DriveState) == Str(Forced)) || AnyForced(vehs[1..], v)
  }

  /** `is_vehicle_driven(v)`, with the lookups on the transformed field names
      (`vehid`, `drive_state`): true exactly for a present vehicle whose
      driving mode is the forced one. */
  function IsVehicleDriven(vehs: seq<Record>, v: int): (r: bool)
    ensures r <==> exists i :: 0 <= i < |vehs| && HasId(vehs[i], v) && Get(vehs[i], DriveState) == Str(Forced)
    ensures !IsVehicleInNetwork(vehs, v, []) ==> !r
  {
    if IsVehicleInNetwork(vehs, v, []) then AnyForced(vehs, v) else false
  }

  /** `is_vehicle_driven(v)` as written: it looks up the raw names `@id` and
      `@etat_pilotage` on records `transform` has already renamed. */
  function IsVehicleDrivenAsWritten(vehs: seq<Record>, v: int): bool
  {
    if IsVehicleInNetwork(vehs, v, []) then
      exists i :: 0 <= i < |vehs| && Get(vehs[i], "@id") == Int(v)
        && Get(vehs[i], "@etat_pilotage") == Str(Forced)
    else false
  }

  /** Every key of every record is a canonical field name, as `transform`
      produces. */
  predicate Transformed(vehs: seq<Record>)
  {
    forall i, k :: 0 <= i < |vehs| && k in vehs[i] ==> k in FieldData.Values
  }

  /** As written, no transformed snapshot ever reports a driven vehicle. */
  lemma DrivenAsWrittenIsNeverTrue(vehs: seq<Record>, v: int)
    requires Transformed(vehs)
    ensures !IsVehicleDrivenAsWritten(vehs, v)
  {
    CanonicalNamesAreNotRaw();
    assert "@id" !in FieldData.Values;
    assert forall i :: 0 <= i < |vehs| ==> Get(vehs[i], "@id") == Null;
  }

  // ---------------------------------------------------------------------------
  // Upstream / downstream neighbours.

  /** The position of a vehicle: its link and distance along it. */
  datatype Position = Position(link: string, distance: real)

  function PositionOf(rec: Record): Option<Position>
  {
    match (Get(rec, "link"), Get(rec, "distance"))
    case (Str(l), Real(d)) => Some(Position(l, d))
    case _ => None
  }

  /** The position of vehicle `v`: that of its first record, if the record
      has a link and a distance. */
  function Anchor(vehs: seq<Record>, v: int): (r: Option<Position>)
    ensures r.Some? ==> exists i :: 0 <= i < |vehs| && HasId(vehs[i], v) && PositionOf(vehs[i]) == r
    ensures !Present(vehs, v) ==> r.None?
  {
    if vehs == [] then None
    else if HasId(vehs[0], v) then PositionOf(vehs[0])
    else
      var r := Anchor(vehs[1..], v);
      assert forall i :: 1 <= i < |vehs| ==> vehs[i] == vehs[1..][i - 1];
      r
  }

  /** Record `rec` is another vehicle than `v` on link `link`, with an id. */
  predicate OtherOnLink(rec: Record, v: int, link: string)
  {
    VehidOf(rec).Int? && VehidOf(rec).i != v && PositionOf(rec).Some? && PositionOf(rec).value.link == link
  }

  /** `vehicle_downstream_of(v)`: the other vehicles on `v`'s link strictly
      further along it; `None` when `v` has no position in the snapshot. */
  function DownstreamOf(vehs: seq<Record>, v: int): (r: Option<set<int>>)
    ensures r.Some? <==> Anchor(vehs, v).Some?
    ensures r.Some? ==> v !in r.value
    ensures r.Some? ==> forall id :: id in r.value ==> Present(vehs, id)
  {
    match Anchor(vehs, v)
    case None => None
    case Some(here) =>
      Some(set i | 0 <= i < |vehs| && OtherOnLink(vehs[i], v, here.link)
                   && PositionOf(vehs[i]).value.distance > here.distance :: VehidOf(vehs[i]).i)
  }

  /** `vehicle_upstream_of(v)`: the other vehicles on `v`'s link strictly
      behind it; `None` when `v` has no position in the snapshot. */
  function UpstreamOf(vehs: seq<Record>, v: int): (r: Option<set<int>>)
    ensures r.Some? <==> Anchor(vehs, v).Some?
    ensures r.Some? ==> v !in r.value
    ensures r.Some? ==> forall id :: id in r.value ==> Present(vehs, id)
  {
    match Anchor(vehs, v)
    case None => None
    case Some(here) =>
      Some(set i | 0 <= i < |vehs| && OtherOnLink(vehs[i], v, here.link)
                   && PositionOf(vehs[i]).value.distance < here.distance :: VehidOf(vehs[i]).i)
  }

  /** No vehicle has two records. */
  predicate UniqueIds(vehs: seq<Record>)
  {
    forall i, j :: 0 <= i < j < |vehs| && VehidOf(vehs[i]).Int? ==> VehidOf(vehs[i]) != VehidOf(vehs[j])
  }

  /** With unique ids, the record of a vehicle that has an anchor is where
      the anchor comes from. */
  lemma AnchorOfUnique(vehs: seq<Record>, i: int)
    requires UniqueIds(vehs) && 0 <= i < |vehs| && VehidOf(vehs[i]).Int?
    ensures Anchor(vehs, VehidOf(vehs[i]).i) == PositionOf(vehs[i])
  {
    var v := VehidOf(vehs[i]).i;
    if i > 0 {
      assert !HasId(vehs[0], v);
      var tail := vehs[1..];
      assert tail[i - 1] == vehs[i];
      assert UniqueIds(tail) by {
        forall a, b | 0 <= a < b < |tail| && VehidOf(tail[a]).Int? ensures VehidOf(tail[a]) != VehidOf(tail[b]) {
          assert tail[a] == vehs[a + 1] && tail[b] == vehs[b + 1];
        }
      }
      AnchorOfUnique(tail, i - 1);
    }
  }

  /** With unique ids, a vehicle other than `v` on `v`'s link has one record,
      so one distance. */
  lemma OnlyRecordOf(vehs: seq<Record>, i: int, j: int)
    requires UniqueIds(vehs) && 0 <= i < |vehs| && 0 <= j < |vehs|
    requires VehidOf(vehs[i]).Int? && VehidOf(vehs[j]) == VehidOf(vehs[i])
    ensures i == j
  {
  }

  /** With unique ids, `u` is downstream of `v` exactly when it is another
      vehicle on `v`'s link, strictly further along it. */
  lemma {:induction false} DownstreamMembers(vehs: seq<Record>, v: int, u: int)
    requires UniqueIds(vehs) && Anchor(vehs, v).Some?
    ensures u in DownstreamOf(vehs, v).value <==>
      && u != v && Anchor(vehs, u).Some?
      && Anchor(vehs, u).value.link == Anchor(vehs, v).value.link
      && Anchor(vehs, u).value.distance > Anchor(vehs, v).value.distance
  {
    var here := Anchor(vehs, v).value;
    if u in DownstreamOf(vehs, v).value {
      var i :| 0 <= i < |vehs| && OtherOnLink(vehs[i], v, here.link)
               && PositionOf(vehs[i]).value.distance > here.distance && VehidOf(vehs[i]).i == u;
      AnchorOfUnique(vehs, i);
    }
    if u != v && Anchor(vehs, u).Some? && Anchor(vehs, u).value.link == here.link
       && Anchor(vehs, u).value.distance > here.distance {
      var j :| 0 <= j < |vehs| && HasId(vehs[j], u) && PositionOf(vehs[j]) == Anchor(vehs, u);
      assert OtherOnLink(vehs[j], v, here.link);
    }
  }

  /** With unique ids, `u` is upstream of `v` exactly when it is another
      vehicle on `v`'s link, strictly behind it. */
  lemma {:induction false} UpstreamMembers(vehs: seq<Record>, v: int, u: int)
    requires UniqueIds(vehs) && Anchor(vehs, v).Some?
    ensures u in UpstreamOf(vehs, v).value <==>
      && u != v && Anchor(vehs, u).Some?
      && Anchor(vehs, u).value.link == Anchor(vehs, v).value.link
      && Anchor(vehs, u).value.distance < Anchor(vehs, v).value.distance
  {
    var here := Anchor(vehs, v).value;
    if u in UpstreamOf(vehs, v).value {
      var i :| 0 <= i < |vehs| && OtherOnLink(vehs[i], v, here.link)
               && PositionOf(vehs[i]).value.distance < here.distance && VehidOf(vehs[i]).i == u;
      AnchorOfUnique(vehs, i);
    }
    if u != v && Anchor(vehs, u).Some? && Anchor(vehs, u).value.link == here.link
       && Anchor(vehs, u).value.distance < here.distance {
      var j :| 0 <= j < |vehs| && HasId(vehs[j], u) && PositionOf(vehs[j]) == Anchor(vehs, u);
      assert OtherOnLink(vehs[j], v, here.link);
    }
  }

  /** Upstream and downstream never share a vehicle. */
  lemma NeighboursAreDisjoint(vehs: seq<Record>, v: int)
    requires Anchor(vehs, v).Some?
    requires UniqueIds(vehs)
    ensures DownstreamOf(vehs, v).value !! UpstreamOf(vehs, v).value
  {
    var here := Anchor(vehs, v).value;
    forall id | id in DownstreamOf(vehs, v).value ensures id !in UpstreamOf(vehs, v).value {
      var i :| 0 <= i < |vehs| && OtherOnLink(vehs[i], v, here.link)
               && PositionOf(vehs[i]).value.distance > here.distance && VehidOf(vehs[i]).i == id;
      forall j | 0 <= j < |vehs| && OtherOnLink(vehs[j], v, here.link) && VehidOf(vehs[j]).i == id
        ensures PositionOf(vehs[j]).value.distance > here.distance
      {
        OnlyRecordOf(vehs, i, j);
      }
    }
  }

  /** A vehicle level with `v` on its link is neither upstream nor downstream. */
  lemma TiesAreExcluded(vehs: seq<Record>, v: int, j: int)
    requires Anchor(vehs, v).Some? && UniqueIds(vehs)
    requires 0 <= j < |vehs| && OtherOnLink(vehs[j], v, Anchor(vehs, v).value.link)
    requires PositionOf(vehs[j]).value.distance == Anchor(vehs, v).value.distance
    ensures VehidOf(vehs[j]).i !in DownstreamOf(vehs, v).value
    ensures VehidOf(vehs[j]).i !in UpstreamOf(vehs, v).value
  {
    var here := Anchor(vehs, v).value;
    var id := VehidOf(vehs[j]).i;
    forall i | 0 <= i < |vehs| && OtherOnLink(vehs[i], v, here.link) && VehidOf(vehs[i]).i == id
      ensures PositionOf(vehs[i]).value.distance == here.distance
    {
      OnlyRecordOf(vehs, j, i);
    }
  }

  /** `u` is downstream of `v` exactly when `v` is upstream of `u`. */
  lemma NeighbourSymmetry(vehs: seq<Record>, u: int, v: int)
    requires UniqueIds(vehs)
    ensures (DownstreamOf(vehs, v).Some? && u in DownstreamOf(vehs, v).value)
        <==> (UpstreamOf(vehs, u).Some? && v in UpstreamOf(vehs, u).value)
  {
    if DownstreamOf(vehs, v).Some? && u in DownstreamOf(vehs, v).value {
      var here := Anchor(vehs, v).value;
      var i :| 0 <= i < |vehs| && OtherOnLink(vehs[i], v, here.link)
               && PositionOf(vehs[i]).value.distance > here.distance && VehidOf(vehs[i]).i == u;
      AnchorOfUnique(vehs, i);
      var j :| 0 <= j < |vehs| && HasId(vehs[j], v) && PositionOf(vehs[j]) == Some(here);
      assert OtherOnLink(vehs[j], u, PositionOf(vehs[i]).value.link);
    }
    if UpstreamOf(vehs, u).Some? && v in UpstreamOf(vehs, u).value {
      var there := Anchor(vehs, u).value;
      var j :| 0 <= j < |vehs| && OtherOnLink(vehs[j], u, there.link)
               && PositionOf(vehs[j]).value.distance < there.distance && VehidOf(vehs[j]).i == v;
      AnchorOfUnique(vehs, j);
      var i :| 0 <= i < |vehs| && HasId(vehs[i], u) && PositionOf(vehs[i]) == Some(there);
      assert OtherOnLink(vehs[i], v, PositionOf(vehs[j]).value.link);
    }
  }
}

=== FILE: request.dfy ===
/** `SimulatorRequest` end to end: every query re-reads the current response,
    so an undecodable response answers like an empty snapshot; and the
    fixtures of tests/test_parser.py as concrete cases. */
module Request {
  import opened Wrappers
  import opened Records
  import opened Schema
  import opened Snapshot
  import opened Queries
  import Numerals

  /** An empty snapshot answers every query with nothing: empty tuples,
      `False`, and no neighbours. */
  lemma EmptySnapshotAnswers(p: string, ids: seq<int>, v: int, others: seq<int>, link: string, lane: int)
    ensures GetVehiclesProperty([], p) == []
    ensures FilterVehicleProperty([], p, ids) == []
    ensures !IsVehicleInNetwork([], v, others)
    ensures VehiclesInLink([], link, lane) == []
    ensures !IsVehicleInLink([], v, link)
    ensures !IsVehicleDriven([], v)
    ensures DownstreamOf([], v).None? && UpstreamOf([], v).None?
  {
  }

  /** A response the decoder rejects (or the initial empty buffer) yields
      `{}`, so no vehicles, so every query answers with nothing. */
  lemma FailedDecodingAnswersNothing(d: Decoding, p: string, v: int, link: string)
    requires !d.Decoded?
    ensures DataQuery(d) == EmptyTree
    ensures VehicleData(d) == Success([])
    ensures GetVehiclesProperty(VehicleData(d).value, p) == []
    ensures !IsVehicleInNetwork(VehicleData(d).value, v, [])
    ensures VehiclesInLink(VehicleData(d).value, link, DefaultLane) == []
    ensures !IsVehicleDriven(VehicleData(d).value, v)
  {
  }

  /** The records `get_vehicle_data` produces carry only canonical names. */
  lemma {:induction false} VehicleDataIsTransformed(t: Tree)
    requires GetVehicleData(t).Success?
    ensures Transformed(GetVehicleData(t).value)
  {
    var vehs := GetVehicleData(t).value;
    forall i, k | 0 <= i < |vehs| && k in vehs[i] ensures k in FieldData.Values {
      var raw := Trajectories(t)[i];
      assert Transform(raw) == Success(vehs[i]);
      assert raw != [];
      TransformPairsKeys(raw);
      var j :| 0 <= j < |raw| && k == FieldData[raw[j].0];
    }
  }

  /** As written, `is_vehicle_driven` is `False` on every response. */
  lemma DrivenAsWrittenNeverOnAnyResponse(d: Decoding, v: int)
    requires VehicleData(d).Success?
    ensures !IsVehicleDrivenAsWritten(VehicleData(d).value, v)
  {
    VehicleDataIsTransformed(DataQuery(d));
    DrivenAsWrittenIsNeverTrue(VehicleData(d).value, v);
  }

  // ---------------------------------------------------------------------------
  // The fixtures of tests/test_parser.py.

  /** The transformed record of a vehicle of the fixtures. */
  function Vehicle(id: int, distance: real, speed: real, acceleration: real, mode: Option<string>): (r: Record)
    ensures Get(r, "vehid") == Int(id) && Get(r, "vehtype") == Str("VL")
    ensures Get(r, "link") == Str("Zone_001") && Get(r, "lane") == Int(1)
    ensures Get(r, "distance") == Real(distance)
    ensures Get(r, "id") == Null && Get(r, "@id") == Null
    ensures Get(r, DriveState) == if mode.Some? then Str(mode.value) else Null
  {
    var rec := map[
      "abscissa" := Real(distance), "acceleration" := Real(acceleration), "distance" := Real(distance),
      "elevation" := Real(0.0), "lane" := Int(1), "link" := Str("Zone_001"), "ordinate" := Real(0.0),
      "speed" := Real(speed), "vehid" := Int(id), "vehtype" := Str("VL")];
    match mode
    case None => rec
    case Some(m) => rec[DriveState := Str(m)]
  }

  /** The two vehicles of `two_vehicle_xml`, 75.00 and 44.12 along `Zone_001`:
      the expected records `two_trajectory_vehicle_data`, written out already
      transformed rather than derived from the raw attributes. */
  const TwoVehicles := [Vehicle(0, 75.0, 25.0, 0.0, None), Vehicle(1, 44.12, 25.0, 0.0, None)]

  lemma TwoVehicleProperties()
    ensures GetVehiclesProperty(TwoVehicles, "vehid") == [Int(0), Int(1)]
    ensures GetVehiclesProperty(TwoVehicles, "id") == [Null, Null]
    ensures IsVehicleInNetwork(TwoVehicles, 0, [1])
    ensures !IsVehicleDriven(TwoVehicles, 0)
  {
    assert HasId(TwoVehicles[0], 0) && HasId(TwoVehicles[1], 1);
  }

  /** `filter_vehicle_property("vehtype", 0, 1) == ("VL", "VL")` */
  lemma TwoVehicleFilterBoth()
    ensures FilterVehicleProperty(TwoVehicles, "vehtype", [0, 1]) == [Str("VL"), Str("VL")]
  {
    var a, b := TwoVehicles[0], TwoVehicles[1];
    assert HasIdIn(a, [0, 1]) && HasIdIn(b, [0, 1]);
    assert TwoVehicles[1..] == [b] && [b][1..] == [];
    assert Seqs.Filter(TwoVehicles, rec => HasIdIn(rec, [0, 1])) == [a, b];
  }

  /** `filter_vehicle_property("vehid", 1) == (1,)` */
  lemma TwoVehicleFilterOne()
    ensures FilterVehicleProperty(TwoVehicles, "vehid", [1]) == [Int(1)]
  {
    var a, b := TwoVehicles[0], TwoVehicles[1];
    assert !HasIdIn(a, [1]) && HasIdIn(b, [1]);
    assert TwoVehicles[1..] == [b] && [b][1..] == [];
    assert Seqs.Filter(TwoVehicles, rec => HasIdIn(rec, [1])) == [b];
  }

  lemma TwoVehicleLinks()
    ensures VehiclesInLink(TwoVehicles, "Zone_001", 1) == [Int(0), Int(1)]
    ensures VehiclesInLink(TwoVehicles, "Zone_001", 2) == []
    ensures IsVehicleInLink(TwoVehicles, 1, "Zone_001")
  {
    var a, b := TwoVehicles[0], TwoVehicles[1];
    assert TwoVehicles[1..] == [b] && [b][1..] == [];
    assert OnLane(a, "Zone_001", 1) && OnLane(b, "Zone_001", 1);
  }

  /** Both fixture vehicles are anchored on `Zone_001`, vehicle 0 ahead. */
  lemma TwoVehiclePositions()
    ensures Anchor(TwoVehicles, 0) == Some(Position("Zone_001", 75.0))
    ensures Anchor(TwoVehicles, 1) == Some(Position("Zone_001", 44.12))
    ensures PositionOf(TwoVehicles[0]) == Some(Position("Zone_001", 75.0))
    ensures PositionOf(TwoVehicles[1]) == Some(Position("Zone_001", 44.12))
    ensures OtherOnLink(TwoVehicles[0], 1, "Zone_001") && !OtherOnLink(TwoVehicles[0], 0, "Zone_001")
    ensures OtherOnLink(TwoVehicles[1], 0, "Zone_001") && !OtherOnLink(TwoVehicles[1], 1, "Zone_001")
    ensures VehidOf(TwoVehicles[0]) == Int(0) && VehidOf(TwoVehicles[1]) == Int(1)
  {
    var vehs := TwoVehicles;
    assert vehs[1..] == [vehs[1]];
    assert HasId(vehs[0], 0) && !HasId(vehs[0], 1) && HasId(vehs[1], 1);
  }

  /** `downstream_of(1) == (0,)` */
  lemma DownstreamOfRear()
    ensures DownstreamOf(TwoVehicles, 1) == Some({0})
  {
    TwoVehiclePositions();
    var vehs := TwoVehicles;
    var down := set i | 0 <= i < |vehs| && OtherOnLink(vehs[i], 1, "Zone_001")
                        && PositionOf(vehs[i]).value.distance > 44.12 :: VehidOf(vehs[i]).i;
    assert 0 in down;
    assert down == {0};
  }

  /** `downstream_of(0) == ()` */
  lemma DownstreamOfFront()
    ensures DownstreamOf(TwoVehicles, 0) == Some({})
  {
    TwoVehiclePositions();
    var vehs := TwoVehicles;
    assert forall i :: 0 <= i < |vehs| ==>
      !(OtherOnLink(vehs[i], 0, "Zone_001") && PositionOf(vehs[i]).value.distance > 75.0);
    assert forall x :: x !in DownstreamOf(vehs, 0).value;
    assert DownstreamOf(vehs, 0).value == {};
  }

  /** `upstream_of(0) == (1,)` */
  lemma UpstreamOfFront()
    ensures UpstreamOf(TwoVehicles, 0) == Some({1})
  {
    TwoVehiclePositions();
    var vehs := TwoVehicles;
    var up := set i | 0 <= i < |vehs| && OtherOnLink(vehs[i], 0, "Zone_001")
                      && PositionOf(vehs[i]).value.distance < 75.0 :: VehidOf(vehs[i]).i;
    assert 1 in up;
    assert up == {1};
  }

  /** `upstream_of(1) == ()` */
  lemma UpstreamOfRear()
    ensures UpstreamOf(TwoVehicles, 1) == Some({})
  {
    TwoVehiclePositions();
    var vehs := TwoVehicles;
    assert forall i :: 0 <= i < |vehs| ==>
      !(OtherOnLink(vehs[i], 1, "Zone_001") && PositionOf(vehs[i]).value.distance < 44.12);
    assert forall x :: x !in UpstreamOf(vehs, 1).value;
    assert UpstreamOf(vehs, 1).value == {};
  }

  /** The vehicle of `one_vehicle_forced_xml`. */
  const ForcedVehicle := [Vehicle(0, 48.0, 23.0, -2.0, Some(Forced))]

  /** The discrepancy on the forced fixture: the test expects `True`; the
      code as written answers `False`, the corrected lookup `True`. */
  lemma ForcedFixtureDiscrepancy()
    ensures IsVehicleDriven(ForcedVehicle, 0)
    ensures !IsVehicleDrivenAsWritten(ForcedVehicle, 0)
  {
    var a := ForcedVehicle[0];
    assert HasId(a, 0) && Get(a, DriveState) == Str(Forced);
    assert Get(a, "@id") == Null;
  }

  /** The `TRAJ` of `one_vehicle_xml` as the decoder presents it. */
  const OneVehicleTraj: RawRecord := [
    ("@abs", "25.00"), ("@acc", "0.00"), ("@dst", "25.00"), ("@id", "0"), ("@ord", "0.00"),
    ("@tron", "Zone_001"), ("@type", "VL"), ("@vit", "25.00"), ("@voie", "1"), ("@z", "0.00")]

  /** The converted values of `OneVehicleTraj`, attribute by attribute. */
  const OneVehicleValues: seq<Value> := [
    Real(25.0), Real(0.0), Real(25.0), Int(0), Real(0.0),
    Str("Zone_001"), Str("VL"), Real(25.0), Int(1), Real(0.0)]

  lemma RenderedFixtureNumbers()
    ensures Numerals.Fixed2(2500) == "25.00" && Numerals.Fixed2(0) == "0.00"
    ensures Numerals.IntToString(0) == "0" && Numerals.IntToString(1) == "1"
  {
    assert Numerals.NatToString(25) == "25" by {
      assert Numerals.NatToString(2) == "2";
    }
  }

  lemma FixtureFloat(key: string, cents: int, text: string)
    requires key in FieldFormat && FieldFormat[key] == AsFloat
    requires (cents == 2500 && text == "25.00") || (cents == 0 && text == "0.00")
    ensures Coerce(key, text) == Success(Real(cents as real / 100.0))
  {
    RenderedFixtureNumbers();
    CoerceRendered(key, cents);
  }

  lemma FixtureInts()
    ensures Coerce("@id", "0") == Success(Int(0))
    ensures Coerce("@voie", "1") == Success(Int(1))
  {
    RenderedFixtureNumbers();
    CoerceRendered("@id", 0);
    CoerceRendered("@voie", 1);
  }

  /** Attribute `i` of the fixture converts to the value the test expects. */
  lemma OneVehicleAttribute(i: int)
    requires 0 <= i < |OneVehicleTraj|
    ensures Coerce(OneVehicleTraj[i].0, OneVehicleTraj[i].1) == Success(OneVehicleValues[i])
  {
    var (key, text) := OneVehicleTraj[i];
    if i == 0 || i == 2 || i == 7 {
      assert text == "25.00" && OneVehicleValues[i] == Real(25.0);
      FixtureFloat(key, 2500, text);
    } else if i == 1 || i == 4 || i == 9 {
      assert text == "0.00" && OneVehicleValues[i] == Real(0.0);
      FixtureFloat(key, 0, text);
    } else if i == 3 || i == 8 {
      FixtureInts();
    } else {
      assert FieldFormat[key] == AsStr && OneVehicleValues[i] == Str(text);
    }
  }

  lemma OneVehicleNamesDistinct()
    ensures DistinctNames(OneVehicleTraj)
  {
  }

  /** The value the record holds under attribute `i`'s canonical name. */
  lemma OneVehicleField(i: int)
    requires 0 <= i < |OneVehicleTraj|
    ensures AllCoercible(OneVehicleTraj)
    ensures FieldData[OneVehicleTraj[i].0] in TransformPairs(OneVehicleTraj).value
    ensures TransformPairs(OneVehicleTraj).value[FieldData[OneVehicleTraj[i].0]] == OneVehicleValues[i]
  {
    var raw := OneVehicleTraj;
    forall j | 0 <= j < |raw| ensures Coerce(raw[j].0, raw[j].1).Success? {
      OneVehicleAttribute(j);
    }
    OneVehicleNamesDistinct();
    OneVehicleAttribute(i);
    TransformPairsValues(raw, i);
  }

  /** The fixture's record has one field per attribute. */
  lemma OneVehicleSize()
    ensures AllCoercible(OneVehicleTraj)
    ensures |TransformPairs(OneVehicleTraj).value| == 10
  {
    OneVehicleField(0);
    OneVehicleNamesDistinct();
    TransformPairsSize(OneVehicleTraj);
  }

  /** The fixture's record holds, under `name`, the value the test expects. */
  lemma OneVehicleNamed(i: int, name: string)
    requires 0 <= i < |OneVehicleTraj| && OneVehicleTraj[i].0 in FieldData
    requires FieldData[OneVehicleTraj[i].0] == name
    ensures AllCoercible(OneVehicleTraj)
    ensures Get(TransformPairs(OneVehicleTraj).value, name) == OneVehicleValues[i]
  {
    OneVehicleField(i);
  }

  /** The fixture's record carries the id and lane the test expects. */
  lemma OneVehicleIdentity()
    ensures AllCoercible(OneVehicleTraj)
    ensures Get(TransformPairs(OneVehicleTraj).value, "vehid") == Int(0)
    ensures Get(TransformPairs(OneVehicleTraj).value, "lane") == Int(1)
  {
    OneVehicleNamed(3, "vehid");
    OneVehicleNamed(8, "lane");
  }

  /** The fixture's record lies on the link the test expects. */
  lemma OneVehicleLink()
    ensures AllCoercible(OneVehicleTraj)
    ensures Get(TransformPairs(OneVehicleTraj).value, "link") == Str("Zone_001")
  {
    OneVehicleNamed(5, "link");
  }

  /** The fixture's record lies at the distance the test expects. */
  lemma OneVehicleDistance()
    ensures AllCoercible(OneVehicleTraj)
    ensures Get(TransformPairs(OneVehicleTraj).value, "distance") == Real(25.0)
  {
    OneVehicleNamed(2, "distance");
  }

  /** `get_vehicle_data` on `one_vehicle_xml` is a one-element list holding
      that record. */
  lemma OneVehicleData()
    ensures AllCoercible(OneVehicleTraj)
    ensures GetVehicleData(Tree(Some(Inst(Some(One(OneVehicleTraj))))))
         == Success([TransformPairs(OneVehicleTraj).value])
  {
    OneVehicleSize();
    assert Transform(OneVehicleTraj) == TransformPairs(OneVehicleTraj);
  }
}

=== FILE: schema.dfy ===
/** Vehicle records and the attribute schema that `SimulatorRequest.transform`
    applies to each decoded `TRAJ` element (symupy/utils/parser.py). */
module Records {
  /** A Python value stored in a record; `Null` is the `None` that
      `dict.get` returns for an absent key. */
  datatype Value = Null | Int(i: int) | Real(x: real) | Str(s: string)

  /** A transformed vehicle record: canonical field name -> coerced value. */
  type Record = map<string, Value>

  /** `record.get(key)` */
  function Get(rec: Record, key: string): (v: Value)
    ensures v == Null <==> key !in rec || rec[key] == Null
  {
    if key in rec then rec[key] else Null
  }
}

module Schema {
  import opened Wrappers
  import opened Numerals
  import opened Records

  /** How an attribute's text is converted (`ct.FIELD_FORMAT`). */
  datatype Format = AsFloat | AsInt | AsStr

  /** Raw attribute name -> canonical field name (`ct.FIELD_DATA`). */
  const FieldData: map<string, string> := map[
    "@abs" := "abscissa",
    "@acc" := "acceleration",
    "@dst" := "distance",
    "@etat_pilotage" := "drive_state",
    "@id" := "vehid",
    "@ord" := "ordinate",
    "@tron" := "link",
    "@type" := "vehtype",
    "@vit" := "speed",
    "@voie" := "lane",
    "@z" := "elevation"
  ]

  /** Raw attribute name -> conversion (`ct.FIELD_FORMAT`). */
  const FieldFormat: map<string, Format> := map[
    "@abs" := AsFloat,
    "@acc" := AsFloat,
    "@dst" := AsFloat,
    "@etat_pilotage" := AsStr,
    "@id" := AsInt,
    "@ord" := AsFloat,
    "@tron" := AsStr,
    "@type" := AsStr,
    "@vit" := AsFloat,
    "@voie" := AsInt,
    "@z" := AsFloat
  ]

  /** The value the simulator's driving-mode attribute carries for a vehicle
      whose motion is imposed from outside. */
  const Forced := "force (ecoulement respecte)"

  /** One decoded `TRAJ` element: its attributes in document order, each
      `("@name", text)` as the XML decoder presents them. */
  type RawRecord = seq<(string, string)>

  predicate HasFormat(v: Value, f: Format)
  {
    match f
    case AsFloat => v.Real?
    case AsInt => v.Int?
    case AsStr => v.Str?
  }

  /** `ct.FIELD_FORMAT[key](text)`, after `ct.FIELD_DATA[key]` has been looked up. */
  function Coerce(key: string, text: string): (r: Result<Value>)
    ensures key !in FieldData ==> r == Failure(KeyError(key))
    ensures r.Success? ==> key in FieldFormat && HasFormat(r.value, FieldFormat[key])
    ensures key in FieldFormat && FieldFormat[key] == AsStr ==> r == Success(Str(text))
    ensures r.Failure? && key in FieldData ==> r.error == ValueError(text)
    ensures key in FieldData && FieldFormat[key] == AsInt ==>
      && (r.Success? <==> ParseInt(text).Some?)
      && (r.Success? ==> r.value == Int(ParseInt(text).value))
    ensures key in FieldData && FieldFormat[key] == AsFloat ==>
      && (r.Success? <==> ParseFloat(text).Some?)
      && (r.Success? ==> r.value == Real(ParseFloat(text).value))
  {
    if key !in FieldData then Failure(KeyError(key))
    else match FieldFormat[key]
      case AsStr => Success(Str(text))
      case AsInt =>
        (match ParseInt(text)
         case Some(n) => Success(Int(n))
         case None => Failure(ValueError(text)))
      case AsFloat =>
        (match ParseFloat(text)
         case Some(x) => Success(Real(x))
         case None => Failure(ValueError(text)))
  }

  /** Distinct raw names get distinct canonical names, so the transformed
      record keeps one key per attribute. */
  lemma FieldDataInjective()
    ensures FieldData.Keys == FieldFormat.Keys
    ensures forall a, b :: a in FieldData && b in FieldData && a != b ==> FieldData[a] != FieldData[b]
  {
  }

  /** No canonical name starts with `@`: a transformed record never carries a
      raw attribute name. */
  lemma CanonicalNamesAreNotRaw()
    ensures forall k :: k in FieldData ==> FieldData[k] !in FieldData && FieldData[k][0] != '@'
  {
  }

  predicate AllCoercible(raw: RawRecord)
  {
    forall i :: 0 <= i < |raw| ==> Coerce(raw[i].0, raw[i].1).Success?
  }

  /** The record is defined by its last occurrence of each name (later
      entries of a dict comprehension overwrite earlier ones). */
  predicate LastOccurrence(raw: RawRecord, i: int)
    requires 0 <= i < |raw|
  {
    forall j :: i < j < |raw| ==> raw[j].0 != raw[i].0
  }

  predicate DistinctNames(raw: RawRecord)
  {
    forall i, j :: 0 <= i < j < |raw| ==> raw[i].0 != raw[j].0
  }

  /** Attribute `i` is the first one whose conversion fails, with `e`. */
  predicate FailsFirstAt(raw: RawRecord, i: int, e: PyError)
  {
    && 0 <= i < |raw|
    && (forall j :: 0 <= j < i ==> Coerce(raw[j].0, raw[j].1).Success?)
    && Coerce(raw[i].0, raw[i].1) == Failure(e)
  }

  /** The canonical names of the attributes of `raw`. */
  function Renamed(raw: RawRecord): set<string>
    requires forall i :: 0 <= i < |raw| ==> raw[i].0 in FieldData
  {
    set i | 0 <= i < |raw| :: FieldData[raw[i].0]
  }

  /** `{FIELD_DATA[k]: FIELD_FORMAT[k](v) for k, v in raw.items()}`: the
      first attribute that fails raises, otherwise every attribute is renamed
      and converted. */
  function TransformPairs(raw: RawRecord): (r: Result<Record>)
    ensures r.Success? <==> AllCoercible(raw)
    ensures r.Failure? ==> exists i :: FailsFirstAt(raw, i, r.error)
  {
    if raw == [] then Success(map[])
    else match Coerce(raw[0].0, raw[0].1)
      case Failure(e) =>
        assert FailsFirstAt(raw, 0, e);
        Failure(e)
      case Success(v) =>
        match TransformPairs(raw[1..])
        case Failure(e) =>
          assert exists i :: FailsFirstAt(raw, i, e) by {
            var i :| FailsFirstAt(raw[1..], i, e);
            assert forall j :: 1 <= j < |raw| ==> raw[j] == raw[1..][j - 1];
            assert FailsFirstAt(raw, i + 1, e);
          }
          Failure(e)
        case Success(rest) =>
          Success(map[FieldData[raw[0].0] := v] + rest)
  }

  /** Every attribute contributes exactly its canonical name as a key. */
  lemma {:induction false} TransformPairsKeys(raw: RawRecord)
    requires AllCoercible(raw)
    ensures forall i :: 0 <= i < |raw| ==> raw[i].0 in FieldData
    ensures TransformPairs(raw).value.Keys == Renamed(raw)
  {
    if raw != [] {
      TransformPairsKeys(raw[1..]);
      assert Renamed(raw) == {FieldData[raw[0].0]} + Renamed(raw[1..]) by {
        forall i | 1 <= i < |raw| ensures raw[1..][i - 1] == raw[i] { }
        forall k | k in Renamed(raw) ensures k in {FieldData[raw[0].0]} + Renamed(raw[1..]) {
          var i :| 0 <= i < |raw| && k == FieldData[raw[i].0];
          if i > 0 { assert k == FieldData[raw[1..][i - 1].0]; }
        }
      }
    }
  }

  /** The value under each canonical name is the conversion of the last
      attribute carrying that raw name. */
  lemma {:induction false} TransformPairsValues(raw: RawRecord, i: int)
    requires AllCoercible(raw)
    requires 0 <= i < |raw| && LastOccurrence(raw, i)
    ensures raw[i].0 in FieldData
    ensures FieldData[raw[i].0] in TransformPairs(raw).value
    ensures TransformPairs(raw).value[FieldData[raw[i].0]] == Coerce(raw[i].0, raw[i].1).value
  {
    var tail := raw[1..];
    assert AllCoercible(tail) by {
      forall j | 0 <= j < |tail| ensures Coerce(tail[j].0, tail[j].1).Success? {
        assert tail[j] == raw[j + 1];
      }
    }
    var rest := TransformPairs(tail).value;
    var r := TransformPairs(raw).value;
    assert r == map[FieldData[raw[0].0] := Coerce(raw[0].0, raw[0].1).value] + rest;
    if i > 0 {
      assert tail[i - 1] == raw[i];
      assert LastOccurrence(tail, i - 1) by {
        forall j | i - 1 < j < |tail| ensures tail[j].0 != tail[i - 1].0 {
          assert tail[j] == raw[j + 1];
        }
      }
      TransformPairsValues(tail, i - 1);
    } else {
      TransformPairsKeys(tail);
      FieldDataInjective();
      assert FieldData[raw[0].0] !in Renamed(tail) by {
        forall j | 0 <= j < |tail| ensures FieldData[tail[j].0] != FieldData[raw[0].0] {
          assert tail[j] == raw[j + 1];
        }
      }
    }
  }

  /** With distinct attribute names (as XML guarantees), the record has
      exactly one key per attribute. */
  lemma {:induction false} TransformPairsSize(raw: RawRecord)
    requires AllCoercible(raw) && DistinctNames(raw)
    ensures |TransformPairs(raw).value| == |raw|
  {
    if raw != [] {
      TailKeepsNames(raw);
      TransformPairsSize(raw[1..]);
      FirstNameIsNew(raw);
      var rest := TransformPairs(raw[1..]).value;
      var k := FieldData[raw[0].0];
      assert TransformPairs(raw).value == map[k := Coerce(raw[0].0, raw[0].1).value] + rest;
      AddFreshKey(k, Coerce(raw[0].0, raw[0].1).value, rest);
    }
  }

  /** With distinct names, the first attribute's canonical name is not among
      those of the rest. */
  lemma FirstNameIsNew(raw: RawRecord)
    requires raw != [] && AllCoercible(raw) && DistinctNames(raw)
    ensures AllCoercible(raw[1..])
    ensures raw[0].0 in FieldData && FieldData[raw[0].0] !in TransformPairs(raw[1..]).value
  {
    var tail := raw[1..];
    TailKeepsNames(raw);
    TransformPairsKeys(tail);
    FieldDataInjective();
    assert raw[0].0 in FieldData;
    forall j | 0 <= j < |tail| ensures FieldData[tail[j].0] != FieldData[raw[0].0] {
      assert tail[j] == raw[j + 1];
    }
  }

  lemma AddFreshKey<K, V>(k: K, v: V, m: map<K, V>)
    requires k !in m
    ensures |map[k := v] + m| == |m| + 1
  {
    assert (map[k := v] + m).Keys == m.Keys + {k};
  }

  /** Dropping the first attribute keeps the record convertible, with
      distinct names. */
  lemma TailKeepsNames(raw: RawRecord)
    requires raw != [] && AllCoercible(raw) && DistinctNames(raw)
    ensures AllCoercible(raw[1..]) && DistinctNames(raw[1..])
  {
    var tail := raw[1..];
    assert forall j :: 0 <= j < |tail| ==> tail[j] == raw[j + 1];
  }

  /** `SimulatorRequest.transform`: an attribute-less `TRAJ` decodes to `None`,
      whose missing `.items()` raises `AttributeError`. */
  function Transform(raw: RawRecord): (r: Result<Record>)
    ensures raw == [] ==> r == Failure(AttributeError)
    ensures raw != [] ==> r == TransformPairs(raw)
  {
    if raw == [] then Failure(AttributeError) else TransformPairs(raw)
  }

  /** Converting the engine's rendering of a number gives back that number:
      integers for `@id`/`@voie`, two-decimal reals for the float fields. */
  lemma CoerceRendered(key: string, n: int)
    requires key in FieldFormat
    ensures FieldFormat[key] == AsInt ==> Coerce(key, IntToString(n)) == Success(Int(n))
    ensures FieldFormat[key] == AsFloat ==> Coerce(key, Fixed2(n)) == Success(Real(n as real / 100.0))
  {
    FieldDataInjective();
    ParseIntOfIntToString(n);
    ParseFloatOfFixed2(n);
  }
}

=== FILE: seqs.dfy ===
/** Order-preserving list comprehensions: Python's `[f(x) for x in s]` and
    `[x for x in s if p(x)]`, with the facts the rest of the model uses. */
module Seqs {

  /** `[f(x) for x in s]` */
  function Map<T, U>(s: seq<T>, f: T -> U): (r: seq<U>)
    ensures |r| == |s|
    ensures forall i :: 0 <= i < |s| ==> r[i] == f(s[i])
  {
    if s == [] then [] else [f(s[0])] + Map(s[1..], f)
  }

  /** `[x for x in s if p(x)]` */
  function Filter<T>(s: seq<T>, p: T -> bool): (r: seq<T>)
    ensures |r| <= |s|
    ensures forall i :: 0 <= i < |r| ==> r[i] in s && p(r[i])
    ensures forall i :: 0 <= i < |s| && p(s[i]) ==> s[i] in r
  {
    if s == [] then []
    else if p(s[0]) then [s[0]] + Filter(s[1..], p)
    else Filter(s[1..], p)
  }

  /** A comprehension over a concatenation is the concatenation of the
      comprehensions: filtering keeps the original order. */
  lemma {:induction false} FilterAppend<T>(a: seq<T>, b: seq<T>, p: T -> bool)
    ensures Filter(a + b, p) == Filter(a, p) + Filter(b, p)
  {
    if a == [] {
      assert a + b == b;
    } else {
      assert (a + b)[1..] == a[1..] + b;
      FilterAppend(a[1..], b, p);
    }
  }

  /** A filter every item passes is the identity. */
  lemma {:induction false} FilterAll<T>(s: seq<T>, p: T -> bool)
    requires forall i :: 0 <= i < |s| ==> p(s[i])
    ensures Filter(s, p) == s
  {
    if s != [] {
      FilterAll(s[1..], p);
      assert [s[0]] + s[1..] == s;
    }
  }

  lemma {:induction false} MapAppend<T, U>(a: seq<T>, b: seq<T>, f: T -> U)
    ensures Map(a + b, f) == Map(a, f) + Map(b, f)
  {
    if a == [] {
      assert a + b == b;
    } else {
      assert (a + b)[1..] == a[1..] + b;
      MapAppend(a[1..], b, f);
    }
  }

  /** Mapping over a filter, one element at a time. */
  lemma MapFilterCons<T, U>(s: seq<T>, p: T -> bool, f: T -> U)
    requires s != []
    ensures Map(Filter(s, p), f) == (if p(s[0]) then [f(s[0])] else []) + Map(Filter(s[1..], p), f)
  {
    if p(s[0]) {
      MapAppend([s[0]], Filter(s[1..], p), f);
      assert [s[0]][1..] == [];
    } else {
      assert [] + Map(Filter(s[1..], p), f) == Map(Filter(s[1..], p), f);
    }
  }
}

=== FILE: snapshot.dfy ===
/** The decoded simulator response and its normalisation into a list of
    vehicle records (`SimulatorRequest.data_query` and `get_vehicle_data`,
    symupy/utils/parser.py).  The XML text itself is not decoded here: the
    decoder's outcome is an input. */
module Snapshot {
  import opened Wrappers
  import opened Records
  import opened Schema

  /** The `TRAJ` children of `TRAJS`: the decoder yields a single mapping for
      one child and a list for several; `NoTraj` is a `TRAJS` element with
      content but no `TRAJ` child. */
  datatype Trajs = One(traj: RawRecord) | Many(trajs: seq<RawRecord>) | NoTraj

  /** The `INST` element; `trajs` is `None` when `TRAJS` is absent or empty
      (the decoder gives `None` for `<TRAJS/>`).  `BareInst` is an `INST` the
      decoder turns into no mapping: `None` for `<INST/>`, its text for an
      `INST` holding only text. */
  datatype Inst = Inst(trajs: Option<Trajs>) | BareInst

  /** The decoded document; `inst` is `None` for `{}` and for any document
      whose root is not `INST`. */
  datatype Tree = Tree(inst: Option<Inst>)

  /** What the decoder did with the buffer. */
  datatype Decoding = Decoded(tree: Tree) | ExpatFailure | AttributeFailure

  /** The empty mapping `{}`. */
  const EmptyTree := Tree(None)

  /** `data_query`: a decoding failure is caught and gives `{}`. */
  function DataQuery(d: Decoding): (t: Tree)
    ensures d.Decoded? ==> t == d.tree
    ensures !d.Decoded? ==> t == EmptyTree
  {
    match d
    case Decoded(tree) => tree
    case ExpatFailure => EmptyTree
    case AttributeFailure => EmptyTree
  }

  /** Element `i` is the first one whose transformation fails, with `e`. */
  predicate TrajFailsFirstAt(trajs: seq<RawRecord>, i: int, e: PyError)
  {
    && 0 <= i < |trajs|
    && (forall j :: 0 <= j < i ==> Transform(trajs[j]).Success?)
    && Transform(trajs[i]) == Failure(e)
  }

  /** `[transform(d) for d in trajs]`: one record per element, in order; the
      first element that fails raises. */
  function TransformAll(trajs: seq<RawRecord>): (r: Result<seq<Record>>)
    ensures r.Success? <==> forall i :: 0 <= i < |trajs| ==> Transform(trajs[i]).Success?
    ensures r.Success? ==> |r.value| == |trajs|
    ensures r.Success? ==> forall i :: 0 <= i < |trajs| ==> Transform(trajs[i]) == Success(r.value[i])
    ensures r.Failure? ==> exists i :: TrajFailsFirstAt(trajs, i, r.error)
  {
    if trajs == [] then Success([])
    else
      match Transform(trajs[0])
      case Failure(e) =>
        assert TrajFailsFirstAt(trajs, 0, e);
        Failure(e)
      case Success(first) =>
        match TransformAll(trajs[1..])
        case Failure(e) =>
          assert exists i :: TrajFailsFirstAt(trajs, i, e) by {
            var i :| TrajFailsFirstAt(trajs[1..], i, e);
            assert forall j :: 0 <= j < |trajs[1..]| ==> trajs[1..][j] == trajs[j + 1];
            assert TrajFailsFirstAt(trajs, i + 1, e);
          }
          Failure(e)
        case Success(rest) =>
          assert forall i :: 1 <= i < |trajs| ==> trajs[i] == trajs[1..][i - 1];
          Success([first] + rest)
  }

  /** The `TRAJ` elements of a document, as a list whatever their number. */
  function Trajectories(t: Tree): seq<RawRecord>
  {
    match t.inst
    case Some(Inst(Some(One(traj)))) => [traj]
    case Some(Inst(Some(Many(trajs)))) => trajs
    case _ => []
  }

  /** What `get_vehicle_data` raises before it transforms anything: `.get`
      on an `INST` that is no mapping, and `["TRAJ"]` on a `TRAJS` without
      that child. */
  function ShapeError(t: Tree): Option<PyError>
  {
    match t.inst
    case Some(BareInst) => Some(AttributeError)
    case Some(Inst(Some(NoTraj))) => Some(KeyError("TRAJ"))
    case _ => None
  }

  /** `get_vehicle_data`: no `TRAJS` gives `[]`, a single `TRAJ` a one-element
      list, a list of `TRAJ` one record per element in document order. */
  function GetVehicleData(t: Tree): (r: Result<seq<Record>>)
    ensures t.inst.None? || t.inst == Some(Inst(None)) ==> r == Success([])
    ensures ShapeError(t).Some? ==> r == Failure(ShapeError(t).value)
    ensures ShapeError(t).None? ==>
      (r.Success? <==> forall i :: 0 <= i < |Trajectories(t)| ==> Transform(Trajectories(t)[i]).Success?)
    ensures r.Success? ==> |r.value| == |Trajectories(t)|
    ensures r.Success? ==> forall i :: 0 <= i < |r.value| ==>
      Transform(Trajectories(t)[i]) == Success(r.value[i])
    ensures r.Failure? && ShapeError(t).None? ==> exists i :: TrajFailsFirstAt(Trajectories(t), i, r.error)
  {
    match t.inst
    case None => Success([])
    case Some(BareInst) => Failure(AttributeError)
    case Some(Inst(trajs)) =>
      match trajs
      case None => Success([])
      case Some(NoTraj) => Failure(KeyError("TRAJ"))
      case Some(One(traj)) =>
        (match Transform(traj)
         case Failure(e) =>
           assert TrajFailsFirstAt(Trajectories(t), 0, e);
           Failure(e)
         case Success(rec) => Success([rec]))
      case Some(Many(trajs)) =>
        assert Trajectories(t) == trajs;
        TransformAll(trajs)
  }

  /** The records of the current response: decode, then normalise. */
  function VehicleData(d: Decoding): Result<seq<Record>>
  {
    GetVehicleData(DataQuery(d))
  }

  /** A response the decoder rejects behaves like one without vehicles. */
  lemma FailedDecodingHasNoVehicles(d: Decoding)
    requires !d.Decoded?
    ensures VehicleData(d) == Success([])
  {
  }

  /** A single `TRAJ` and a one-element list of it give the same records:
      the scalar/list collapse of the decoder is invisible downstream. */
  lemma SingleIsOneElementList(raw: RawRecord)
    ensures GetVehicleData(Tree(Some(Inst(Some(One(raw))))))
         == GetVehicleData(Tree(Some(Inst(Some(Many([raw]))))))
  {
    assert [raw][1..] == [];
    assert TransformAll([raw][1..]) == Success([]);
    match Transform(raw)
    case Failure(e) =>
    case Success(rec) =>
      assert [raw][0] == raw;
      assert [rec] + [] == [rec];
      assert TransformAll([raw]) == Success([rec]);
  }
}

=== FILE: symumaster.dfy ===
/** The SymuMaster post-processing readers (symupy/plugins/reader/symumaster.py):
    the rows of the `PPaths`, final `PPaths` and distribution CSV files, as
    pandas presents them, and the paths and trips read out of them.  Loading
    the files is outside the model: a frame is an input. */
module SymuMaster {
  import opened Wrappers
  import opened Numerals
  import opened PathText
  import Seqs

  /** One CSV cell: text, an integer or float column value, or a missing value. */
  datatype Cell = Text(s: string) | Int(i: int) | Float(x: real) | NaN

  type Row = seq<Cell>

  /** A pandas frame: `width` columns, labelled `0 .. width - 1`. */
  datatype Frame = Frame(width: nat, rows: seq<Row>)

  /** Every row of a frame has one cell per column. */
  predicate Rectangular(f: Frame)
  {
    forall i :: 0 <= i < |f.rows| ==> |f.rows[i]| == f.width
  }

  /** A path: the links it runs through, in order. */
  type Path = seq<string>

  /** An origin/destination pair. */
  type OD = (string, string)

  /** The token that marks a path cell whose origin and destination are areas. */
  const AreaPattern := "Area Pattern"

  /** The path cell of the distribution file's summary rows. */
  const SumSentinel := "Sum of user and minimum travel time for the OD"

  /** `row[1][c]` of `iterrows()`: a missing column raises `KeyError`.  The
      label pandas reports is the integer `c`; `PyError` carries it as its
      decimal text. */
  function At(row: Row, c: nat): (r: Result<Cell>)
    ensures r.Success? <==> c < |row|
    ensures r.Success? ==> r.value == row[c]
    ensures r.Failure? ==> r.error == KeyError(IntToString(c))
  {
    if c < |row| then Success(row[c]) else Failure(KeyError(IntToString(c)))
  }

  /** `int(x)` on a float: truncation toward zero. */
  function TruncateTowardZero(x: real): (n: int)
    ensures 0.0 <= x ==> n as real <= x < n as real + 1.0
    ensures x < 0.0 ==> n as real - 1.0 < x <= n as real
  {
    if x >= 0.0 then x.Floor else -((-x).Floor)
  }

  /** `int(cell)` (and `astype(int)` on one cell): text is parsed, floats are
      truncated, a missing value raises `ValueError`. */
  function IntOf(c: Cell): (r: Result<int>)
    ensures c.Int? ==> r == Success(c.i)
    ensures c.NaN? ==> r.Failure?
    ensures c.Float? ==> r == Success(TruncateTowardZero(c.x))
    ensures c.Text? ==> (r.Success? <==> ParseInt(c.s).Some?)
    ensures c.Text? && r.Success? ==> r.value == ParseInt(c.s).value
    ensures r.Failure? ==> r.error.ValueError?
  {
    match c
    case Text(s) =>
      (match ParseInt(s)
       case Some(n) => Success(n)
       case None => Failure(ValueError(s)))
    case Int(i) => Success(i)
    case Float(x) => Success(TruncateTowardZero(x))
    case NaN => Failure(ValueError("nan"))
  }

  // ---------------------------------------------------------------------------
  // SymuMasterPPathsReader.get_OD

  /** Whether a split path cell runs from `od.0` to `od.1`: for an area path
      the origin and destination sit third from each end, otherwise at the
      ends. */
  predicate ODMatches(tokens: seq<string>, od: OD)
    requires |tokens| >= 1
  {
    if AreaPattern in tokens then
      |tokens| >= 3 && tokens[2] == od.0 && tokens[|tokens| - 3] == od.1
    else
      tokens[0] == od.0 && tokens[|tokens| - 1] == od.1
  }

  /** The links of a split path cell: every other token strictly inside the
      origin and destination. */
  function PathLinks(tokens: seq<string>): Path
  {
    if AreaPattern in tokens then EveryOther(PySlice(tokens, 3, -3))
    else EveryOther(PySlice(tokens, 1, -1))
  }

  /** Lines 35-42 of `get_OD`: whether the cell matches `od`, and its links.
      Indexing an area path shorter than three tokens raises `IndexError`. */
  function MatchPath(tokens: seq<string>, od: OD): (r: Result<(bool, Path)>)
    requires |tokens| >= 1
    ensures r.Failure? <==> AreaPattern in tokens && |tokens| < 3
    ensures r.Failure? ==> r.error == IndexError
    ensures r.Success? ==> (r.value.0 <==> ODMatches(tokens, od)) && r.value.1 == PathLinks(tokens)
  {
    if AreaPattern in tokens then
      if |tokens| < 3 then Failure(IndexError)
      else Success((tokens[2] == od.0 && tokens[|tokens| - 3] == od.1, EveryOther(PySlice(tokens, 3, -3))))
    else
      Success((tokens[0] == od.0 && tokens[|tokens| - 1] == od.1, EveryOther(PySlice(tokens, 1, -1))))
  }

  /** The links of a plain path are its odd-position tokens, origin and
      destination excluded; those of an area path start three tokens in. */
  lemma PathLinksPositions(tokens: seq<string>)
    requires |tokens| >= 1
    ensures AreaPattern !in tokens ==>
      && |PathLinks(tokens)| == (|tokens| - 1) / 2
      && forall i :: 0 <= i < |PathLinks(tokens)| ==> PathLinks(tokens)[i] == tokens[1 + 2 * i]
    ensures AreaPattern in tokens ==>
      forall i :: 0 <= i < |PathLinks(tokens)| ==> 3 + 2 * i < |tokens| - 3 && PathLinks(tokens)[i] == tokens[3 + 2 * i]
  {
    InnerStride(tokens, 1);
    InnerStride(tokens, 3);
  }

  /** The optional `period` filter: `int(row[0]) == period`. */
  function PeriodHolds(row: Row, period: Option<int>): (r: Result<bool>)
    ensures period.None? ==> r == Success(true)
    ensures period.Some? && |row| > 0 ==>
      && (r.Success? <==> IntOf(row[0]).Success?)
      && (r.Success? ==> (r.value <==> IntOf(row[0]).value == period.value))
      && (r.Failure? ==> r == Failure(IntOf(row[0]).error))
  {
    match period
    case None => Success(true)
    case Some(p) =>
      var c :- At(row, 0);
      var n :- IntOf(c);
      Success(n == p)
  }

  /** The optional `loop` filter: `int(row[1]) == loop[0] and int(row[2]) == loop[1]`,
      the second cell read only when the first one matches. */
  function LoopHolds(row: Row, loop: Option<(int, int)>): (r: Result<bool>)
    ensures loop.None? ==> r == Success(true)
    ensures loop.Some? && |row| > 2 ==>
      && (r.Failure? <==> IntOf(row[1]).Failure? || (IntOf(row[1]) == Success(loop.value.0) && IntOf(row[2]).Failure?))
      && (r.Failure? ==> r.error.ValueError?)
      && (r.Success? ==> (r.value <==> IntOf(row[1]) == Success(loop.value.0) && IntOf(row[2]) == Success(loop.value.1)))
  {
    match loop
    case None => Success(true)
    case Some((l0, l1)) =>
      var c1 :- At(row, 1);
      var a :- IntOf(c1);
      if a != l0 then Success(false)
      else
        var c2 :- At(row, 2);
        var b :- IntOf(c2);
        Success(b == l1)
  }

  /** The row is one `get_OD` keeps: its path cell runs from `od.0` to
      `od.1` and the given period and loop agree with its first columns. */
  predicate PPathsKeeps(row: Row, od: OD, period: Option<int>, loop: Option<(int, int)>)
  {
    && |row| > 7
    && row[7].Text?
    && ODMatches(Split(row[7].s, Sep), od)
    && (period.Some? ==> IntOf(row[0]) == Success(period.value))
    && (loop.Some? ==> IntOf(row[1]) == Success(loop.value.0) && IntOf(row[2]) == Success(loop.value.1))
  }

  /** The links `get_OD` reads from a row's path cell. */
  function PPathsLinks(row: Row): Path
  {
    if |row| > 7 && row[7].Text? then PathLinks(Split(row[7].s, Sep)) else []
  }

  /** The body of the loop of `get_OD` for one row: `Some(links)` when the
      row is kept, `None` when it is not or when its path cell is not text
      (the `AttributeError` of `.split` is caught); any other error escapes. */
  function ReadRow(row: Row, od: OD, period: Option<int>, loop: Option<(int, int)>): (r: Result<Option<Path>>)
    ensures |row| > 7 && !row[7].Text? ==> r == Success(None)
    ensures PPathsKeeps(row, od, period, loop) ==> r == Success(Some(PPathsLinks(row)))
    ensures r.Success? && r.value.Some? ==> PPathsKeeps(row, od, period, loop) && r.value.value == PPathsLinks(row)
    ensures r.Failure? ==> !r.error.AttributeError?
    ensures |row| <= 7 ==> r == Failure(KeyError("7"))
    ensures period.None? && loop.None? && |row| > 7 ==>
      (r.Failure? <==> row[7].Text? && AreaPattern in Split(row[7].s, Sep) && |Split(row[7].s, Sep)| < 3)
    ensures |row| > 7 && row[7].Text? && MatchPath(Split(row[7].s, Sep), od).Failure? ==> r == Failure(IndexError)
    ensures |row| > 7 && row[7].Text? && MatchPath(Split(row[7].s, Sep), od).Success? ==>
      && (r.Failure? <==> PeriodHolds(row, period).Failure? || LoopHolds(row, loop).Failure?)
      && (r.Failure? ==> r.error.ValueError?)
  {
    var cell :- At(row, 7);
    if !cell.Text? then Success(None)
    else
      var m :- MatchPath(Split(cell.s, Sep), od);
      var p :- PeriodHolds(row, period);
      var l :- LoopHolds(row, loop);
      if m.0 && p && l then Success(Some(m.1)) else Success(None)
  }

  /** Row `i` is the first row of the scan that raises, with `e`. */
  predicate RowFailsFirstAt(rows: seq<Row>, i: int, od: OD, period: Option<int>, loop: Option<(int, int)>, e: PyError)
  {
    && 0 <= i < |rows|
    && (forall j :: 0 <= j < i ==> ReadRow(rows[j], od, period, loop).Success?)
    && ReadRow(rows[i], od, period, loop) == Failure(e)
  }

  /** `SymuMasterPPathsReader.get_OD(OD, period, loop)`: the first row that
      raises anything but the caught `AttributeError` aborts the scan;
      otherwise one path per kept row (see `GetODKeepsMatchingRows`). */
  function GetOD(rows: seq<Row>, od: OD, period: Option<int>, loop: Option<(int, int)>): (r: Result<seq<Path>>)
    ensures r.Success? <==> forall i :: 0 <= i < |rows| ==> ReadRow(rows[i], od, period, loop).Success?
    ensures r.Failure? ==> exists i :: RowFailsFirstAt(rows, i, od, period, loop, r.error)
    ensures r.Success? ==> |r.value| <= |rows|
  {
    if rows == [] then Success([])
    else
      assert forall i :: 1 <= i < |rows| ==> rows[i] == rows[1..][i - 1];
      match ReadRow(rows[0], od, period, loop)
      case Failure(e) =>
        assert RowFailsFirstAt(rows, 0, od, period, loop, e);
        Failure(e)
      case Success(first) =>
        match GetOD(rows[1..], od, period, loop)
        case Failure(e) =>
          var i :| RowFailsFirstAt(rows[1..], i, od, period, loop, e);
          assert RowFailsFirstAt(rows, i + 1, od, period, loop, e);
          Failure(e)
        case Success(rest) => Success((if first.Some? then [first.value] else []) + rest)
  }

  /** The links of the rows `get_OD` keeps, in row order. */
  function KeptPaths(rows: seq<Row>, od: OD, period: Option<int>, loop: Option<(int, int)>): seq<Path>
  {
    Seqs.Map(Seqs.Filter(rows, row => PPathsKeeps(row, od, period, loop)), PPathsLinks)
  }

  /** The paths `get_OD` returns are the links of exactly the rows it keeps,
      in row order. */
  lemma {:induction false} GetODKeepsMatchingRows(rows: seq<Row>, od: OD, period: Option<int>, loop: Option<(int, int)>)
    requires GetOD(rows, od, period, loop).Success?
    ensures GetOD(rows, od, period, loop).value == KeptPaths(rows, od, period, loop)
  {
    if rows != [] {
      var keep := row => PPathsKeeps(row, od, period, loop);
      assert forall i :: 1 <= i < |rows| ==> rows[i] == rows[1..][i - 1];
      GetODKeepsMatchingRows(rows[1..], od, period, loop);
      Seqs.MapFilterCons(rows, keep, PPathsLinks);
    }
  }

  /** Scan results in sequence: the first error wins, otherwise the paths
      are concatenated. */
  function AndThen(a: Result<seq<Path>>, b: Result<seq<Path>>): Result<seq<Path>>
  {
    match a
    case Failure(e) => Failure(e)
    case Success(pa) =>
      match b
      case Failure(e) => Failure(e)
      case Success(pb) => Success(pa + pb)
  }

  /** Scanning rows one after the other is scanning their concatenation. */
  lemma {:induction false} GetODAppend(a: seq<Row>, b: seq<Row>, od: OD, period: Option<int>, loop: Option<(int, int)>)
    ensures GetOD(a + b, od, period, loop) == AndThen(GetOD(a, od, period, loop), GetOD(b, od, period, loop))
  {
    var rb := GetOD(b, od, period, loop);
    if a == [] {
      assert a + b == b;
      if rb.Success? {
        assert [] + rb.value == rb.value;
      }
    } else {
      assert (a + b)[0] == a[0];
      assert (a + b)[1..] == a[1..] + b;
      GetODAppend(a[1..], b, od, period, loop);
      var first := ReadRow(a[0], od, period, loop);
      GetODStep(a, od, period, loop);
      GetODStep(a + b, od, period, loop);
      StepAndThen(first, GetOD(a[1..], od, period, loop), rb);
    }
  }

  /** One row of the scan: its outcome, then the rest. */
  function Step(first: Result<Option<Path>>, rest: Result<seq<Path>>): Result<seq<Path>>
  {
    match first
    case Failure(e) => Failure(e)
    case Success(p) =>
      match rest
      case Failure(e) => Failure(e)
      case Success(ps) => Success((if p.Some? then [p.value] else []) + ps)
  }

  lemma GetODStep(rows: seq<Row>, od: OD, period: Option<int>, loop: Option<(int, int)>)
    requires rows != []
    ensures GetOD(rows, od, period, loop) == Step(ReadRow(rows[0], od, period, loop), GetOD(rows[1..], od, period, loop))
  {
  }

  lemma StepAndThen(first: Result<Option<Path>>, rest: Result<seq<Path>>, more: Result<seq<Path>>)
    ensures AndThen(Step(first, rest), more) == Step(first, AndThen(rest, more))
  {
    if first.Success? && rest.Success? && more.Success? {
      var f := if first.value.Some? then [first.value.value] else [];
      assert f + (rest.value + more.value) == (f + rest.value) + more.value;
    }
  }

  /** A row whose path cell is not text is skipped wherever it appears,
      without aborting the scan. */
  lemma NonTextRowIsSkipped(a: seq<Row>, row: Row, b: seq<Row>, od: OD, period: Option<int>, loop: Option<(int, int)>)
    requires |row| > 7 && !row[7].Text?
    ensures GetOD(a + [row] + b, od, period, loop) == GetOD(a + b, od, period, loop)
  {
    GetODAppend(a, [row] + b, od, period, loop);
    GetODAppend(a, b, od, period, loop);
    assert a + [row] + b == a + ([row] + b);
    assert ([row] + b)[0] == row;
    assert ([row] + b)[1..] == b;
    assert ReadRow(row, od, period, loop) == Success(None);
    var rb := GetOD(b, od, period, loop);
    if rb.Success? {
      assert [] + rb.value == rb.value;
    }
    assert GetOD([row] + b, od, period, loop) == rb;
  }

  /** Without period or loop, a row is kept exactly when its path cell runs
      from `od.0` to `od.1`. */
  lemma UnfilteredKeepsMatchingPaths(row: Row, od: OD)
    requires |row| > 7 && row[7].Text?
    ensures PPathsKeeps(row, od, None, None) <==> ODMatches(Split(row[7].s, Sep), od)
  {
  }

  // ---------------------------------------------------------------------------
  // SymuMasterFinalPPathsReader.get_path / get_trip

  /** `frame.iloc[:, 3] == float(userid)`: only numbers compare equal. */
  predicate IsUser(c: Cell, userid: int)
  {
    c == Int(userid) || c == Float(userid as real)
  }

  /** The position of the first row of user `userid`. */
  function FirstRowOf(rows: seq<Row>, userid: int): (r: Option<nat>)
    requires forall i :: 0 <= i < |rows| ==> |rows[i]| > 3
    ensures r.Some? ==> r.value < |rows| && IsUser(rows[r.value][3], userid)
    ensures r.Some? ==> forall j :: 0 <= j < r.value ==> !IsUser(rows[j][3], userid)
    ensures r.None? ==> forall j :: 0 <= j < |rows| ==> !IsUser(rows[j][3], userid)
  {
    if rows == [] then None
    else if IsUser(rows[0][3], userid) then Some(0)
    else
      assert forall i :: 1 <= i < |rows| ==> rows[i] == rows[1..][i - 1];
      match FirstRowOf(rows[1..], userid)
      case None => None
      case Some(k) => Some(k + 1)
  }

  /** The path cell of the first row of `userid`, split: `iloc[:, 3]` needs a
      fourth column, `row[7]` an eighth, `to_list()[0]` a matching row, and
      `.split` a text cell. */
  function UserTokens(f: Frame, userid: int): (r: Result<seq<string>>)
    requires Rectangular(f)
    ensures r.Success? <==>
      (f.width > 7 && FirstRowOf(f.rows, userid).Some? && f.rows[FirstRowOf(f.rows, userid).value][7].Text?)
    ensures r.Success? ==> r.value == Split(f.rows[FirstRowOf(f.rows, userid).value][7].s, Sep)
  {
    if f.width <= 3 then Failure(IndexError)
    else if f.width <= 7 then Failure(KeyError("7"))
    else match FirstRowOf(f.rows, userid)
      case None => Failure(IndexError)
      case Some(k) =>
        var cell := f.rows[k][7];
        if cell.Text? then Success(Split(cell.s, Sep)) else Failure(AttributeError)
  }

  /** The filter of `get_path`'s comprehension: `p != 'Area Pattern'`. */
  predicate NotArea(p: string)
  {
    p != AreaPattern
  }

  /** `SymuMasterFinalPPathsReader.get_path(userid)`: every other token
      inside the ends, `Area Pattern` dropped, then every other item of what
      remains inside its ends. */
  function GetPath(f: Frame, userid: int): (r: Result<Path>)
    requires Rectangular(f)
    ensures r.Success? <==> UserTokens(f, userid).Success?
    ensures r.Success? ==> AreaPattern !in r.value
    ensures r.Success? ==> forall link :: link in r.value ==> link in UserTokens(f, userid).value
  {
    var tokens :- UserTokens(f, userid);
    Success(FinalLinks(tokens))
  }

  /** Lines 67-69 of `get_path` on the split cell. */
  function FinalLinks(tokens: seq<string>): (r: Path)
    ensures AreaPattern !in r
    ensures forall link :: link in r ==> link in tokens
  {
    var inner := Seqs.Filter(OddTokens(tokens), NotArea);
    var path := OddTokens(inner);
    assert forall link :: link in path ==> link in inner;
    assert forall link :: link in inner ==> link in tokens;
    path
  }

  /** Without `Area Pattern` the filter drops nothing: every fourth token,
      starting with the fourth. */
  lemma FinalLinksPlain(tokens: seq<string>)
    requires AreaPattern !in tokens
    ensures var path := FinalLinks(tokens);
      && (|tokens| >= 3 ==> |path| == ((|tokens| - 1) / 2 - 1) / 2)
      && (|tokens| < 3 ==> path == [])
      && forall i :: 0 <= i < |path| ==> 3 + 4 * i < |tokens| && path[i] == tokens[3 + 4 * i]
  {
    var odd := OddTokens(tokens);
    forall i | 0 <= i < |odd| ensures NotArea(odd[i]) {
      assert odd[i] == tokens[1 + 2 * i];
    }
    Seqs.FilterAll(odd, NotArea);
    OddTokensTwice(tokens);
  }

  /** On a plain path cell the filter drops nothing, so `get_path` keeps
      every fourth token, starting with the fourth. */
  lemma GetPathPlain(f: Frame, userid: int)
    requires Rectangular(f)
    requires UserTokens(f, userid).Success? && AreaPattern !in UserTokens(f, userid).value
    ensures var tokens, path := UserTokens(f, userid).value, GetPath(f, userid).value;
      && (|tokens| >= 3 ==> |path| == ((|tokens| - 1) / 2 - 1) / 2)
      && (|tokens| < 3 ==> path == [])
      && forall i :: 0 <= i < |path| ==> 3 + 4 * i < |tokens| && path[i] == tokens[3 + 4 * i]
  {
    FinalLinksPlain(UserTokens(f, userid).value);
  }

  /** `get_path` and `get_trip` read the same cell: the path of `get_path`
      is the trip's path with `Area Pattern` dropped, trimmed of its ends,
      every other item. */
  lemma GetPathOfTrip(f: Frame, userid: int)
    requires Rectangular(f)
    requires UserTokens(f, userid).Success?
    ensures GetTrip(f, userid).Success? && GetPath(f, userid).Success?
    ensures var links := Seqs.Filter(GetTrip(f, userid).value.path, NotArea);
      var path := GetPath(f, userid).value;
      && (|links| >= 2 ==> |path| == (|links| - 1) / 2)
      && (|links| < 2 ==> path == [])
      && forall i :: 0 <= i < |path| ==> path[i] == links[1 + 2 * i]
  {
  }

  /** When the trip arrives: the text `Undefined` is kept as it is, any other
      cell is a date (its conversion is outside the model). */
  datatype Arrival = Undefined | ArrivesAt(date: Cell)

  datatype Trip = Trip(path: Path, departure: Cell, arrival: Arrival,
                       origin: string, destination: string, vehicle: int)

  /** `SymuMasterFinalPPathsReader.get_trip(userid)`: the origin is the first
      token of the path cell, the destination the last, the path every other
      token between them. */
  function GetTrip(f: Frame, userid: int): (r: Result<Trip>)
    requires Rectangular(f)
    ensures r.Success? <==> UserTokens(f, userid).Success?
    ensures r.Success? ==>
      var k := FirstRowOf(f.rows, userid).value;
      var cell := f.rows[k][7].s;
      && Sep !in r.value.origin && Sep !in r.value.destination
      && r.value.origin <= cell
      && |r.value.destination| <= |cell|
      && r.value.destination == cell[|cell| - |r.value.destination|..]
      && (|r.value.origin| == |cell| || cell[|r.value.origin|] == Sep)
      && (|r.value.destination| == |cell| || cell[|cell| - |r.value.destination| - 1] == Sep)
      && (r.value.arrival.Undefined? <==> f.rows[k][5] == Text("Undefined"))
      && (r.value.arrival.ArrivesAt? ==> r.value.arrival.date == f.rows[k][5])
      && r.value.departure == f.rows[k][4]
      && r.value.vehicle == userid
    ensures r.Success? ==>
      var tokens := UserTokens(f, userid).value;
      && (|tokens| >= 2 ==> |r.value.path| == (|tokens| - 1) / 2)
      && (|tokens| < 2 ==> r.value.path == [])
      && forall i :: 0 <= i < |r.value.path| ==> 1 + 2 * i < |tokens| - 1 && r.value.path[i] == tokens[1 + 2 * i]
  {
    var tokens :- UserTokens(f, userid);
    var row := f.rows[FirstRowOf(f.rows, userid).value];
    var arrival := if row[5] == Text("Undefined") then Undefined else ArrivesAt(row[5]);
    TokensFrame(tokens);
    Success(Trip(OddTokens(tokens), row[4], arrival, tokens[0], tokens[|tokens| - 1], userid))
  }

  /** The first token of a split cell starts it; the last one ends it. */
  lemma {:induction false} TokensFrame(tokens: seq<string>)
    requires |tokens| >= 1
    ensures tokens[0] <= Join(tokens, Sep)
    ensures |tokens[|tokens| - 1]| <= |Join(tokens, Sep)|
    ensures var s := Join(tokens, Sep); tokens[|tokens| - 1] == s[|s| - |tokens[|tokens| - 1]|..]
    ensures var s := Join(tokens, Sep); |tokens[0]| == |s| || s[|tokens[0]|] == Sep
    ensures var s, last := Join(tokens, Sep), tokens[|tokens| - 1];
      |last| == |s| || s[|s| - |last| - 1] == Sep
  {
    if |tokens| > 1 {
      TokensFrame(tokens[1..]);
      var rest := Join(tokens[1..], Sep);
      var s := Join(tokens, Sep);
      assert s == tokens[0] + [Sep] + rest;
      assert s[|tokens[0]|] == Sep;
      var last := tokens[|tokens| - 1];
      assert last == tokens[1..][|tokens[1..]| - 1];
      assert s[|s| - |last|..] == rest[|rest| - |last|..];
      if |last| < |rest| {
        assert s[|s| - |last| - 1] == rest[|rest| - |last| - 1];
      }
    }
  }

  /** A trip read from a plain path cell runs along the links `get_OD` reads
      from the same cell, and its own origin and destination match it. */
  lemma TripAgreesWithGetOD(f: Frame, userid: int)
    requires Rectangular(f)
    requires GetTrip(f, userid).Success?
    requires AreaPattern !in UserTokens(f, userid).value
    ensures var t := GetTrip(f, userid).value;
      var row := f.rows[FirstRowOf(f.rows, userid).value];
      && t.path == PPathsLinks(row)
      && ODMatches(Split(row[7].s, Sep), (t.origin, t.destination))
  {
    var tokens := UserTokens(f, userid).value;
    var t := GetTrip(f, userid).value;
    assert t.origin == tokens[0] && t.destination == tokens[|tokens| - 1];
    assert t.path == EveryOther(PySlice(tokens, 1, -1));
  }

  // ---------------------------------------------------------------------------
  // SymuMasterDistributionReader.get_OD

  /** `frame.iloc[:, c].astype(int)`: the first cell that does not convert raises. */
  function ColumnInts(rows: seq<Row>, c: nat): (r: Result<seq<int>>)
    requires forall i :: 0 <= i < |rows| ==> c < |rows[i]|
    ensures r.Success? <==> forall i :: 0 <= i < |rows| ==> IntOf(rows[i][c]).Success?
    ensures r.Success? ==> |r.value| == |rows|
    ensures r.Success? ==> forall i :: 0 <= i < |rows| ==> IntOf(rows[i][c]) == Success(r.value[i])
    ensures r.Failure? ==> exists i :: 0 <= i < |rows| && IntOf(rows[i][c]) == Failure(r.error)
                                      && forall j :: 0 <= j < i ==> IntOf(rows[j][c]).Success?
  {
    if rows == [] then Success([])
    else
      assert forall i :: 1 <= i < |rows| ==> rows[i] == rows[1..][i - 1];
      match IntOf(rows[0][c])
      case Failure(e) => Failure(e)
      case Success(n) =>
        match ColumnInts(rows[1..], c)
        case Failure(e) =>
          var i :| 0 <= i < |rows[1..]| && IntOf(rows[1..][i][c]) == Failure(e)
                   && forall j :: 0 <= j < i ==> IntOf(rows[1..][j][c]).Success?;
          assert IntOf(rows[i + 1][c]) == Failure(e);
          Failure(e)
        case Success(rest) => Success([n] + rest)
  }

  /** The distribution row is kept: origin and destination columns equal
      `od`, the path cell is not the summary sentinel, and the given period
      and loop agree with the first columns. */
  predicate DistKeeps(row: Row, od: OD, period: Option<int>, loop: Option<(int, int)>)
  {
    && |row| > 8
    && row[4] == Text(od.0) && row[5] == Text(od.1) && row[8] != Text(SumSentinel)
    && (period.Some? ==> IntOf(row[0]) == Success(period.value))
    && (loop.Some? ==> IntOf(row[1]) == Success(loop.value.0) && IntOf(row[2]) == Success(loop.value.1))
  }

  /** The links of a distribution path cell: every other token, four in
      from each end. */
  function DistLinks(row: Row): Path
  {
    if |row| > 8 && row[8].Text? then EveryOther(PySlice(Split(row[8].s, Sep), 4, -4)) else []
  }

  /** The paths of the rows the mask selects, in order; `.split` on a
      non-text cell of a selected row raises `AttributeError`. */
  function CollectMasked(rows: seq<Row>, mask: seq<bool>): (r: Result<seq<Path>>)
    requires |mask| == |rows|
    requires forall i :: 0 <= i < |rows| ==> |rows[i]| > 8
    ensures r.Success? <==> forall i :: 0 <= i < |rows| && mask[i] ==> rows[i][8].Text?
    ensures r.Failure? ==> r.error == AttributeError
  {
    if rows == [] then Success([])
    else
      assert forall i :: 1 <= i < |rows| ==> rows[i] == rows[1..][i - 1] && mask[i] == mask[1..][i - 1];
      if mask[0] then
        if rows[0][8].Text? then
          var rest :- CollectMasked(rows[1..], mask[1..]);
          Success([DistLinks(rows[0])] + rest)
        else Failure(AttributeError)
      else CollectMasked(rows[1..], mask[1..])
  }

  /** Collecting along a mask that agrees with `DistKeeps` is mapping the
      links over the kept rows. */
  lemma {:induction false} CollectMaskedIsFilter(rows: seq<Row>, mask: seq<bool>, od: OD, period: Option<int>, loop: Option<(int, int)>)
    requires |mask| == |rows|
    requires forall i :: 0 <= i < |rows| ==> |rows[i]| > 8
    requires forall i :: 0 <= i < |rows| ==> (mask[i] <==> DistKeeps(rows[i], od, period, loop))
    requires CollectMasked(rows, mask).Success?
    ensures CollectMasked(rows, mask).value
         == Seqs.Map(Seqs.Filter(rows, row => DistKeeps(row, od, period, loop)), DistLinks)
  {
    if rows != [] {
      var keep := row => DistKeeps(row, od, period, loop);
      assert forall i :: 1 <= i < |rows| ==> rows[i] == rows[1..][i - 1] && mask[i] == mask[1..][i - 1];
      CollectMaskedIsFilter(rows[1..], mask[1..], od, period, loop);
      Seqs.MapFilterCons(rows, keep, DistLinks);
    }
  }

  /** The integer columns the given filters read convert on every row. */
  predicate FilterColumnsConvert(rows: seq<Row>, period: Option<int>, loop: Option<(int, int)>)
    requires forall i :: 0 <= i < |rows| ==> |rows[i]| > 2
  {
    && (period.Some? ==> forall i :: 0 <= i < |rows| ==> IntOf(rows[i][0]).Success?)
    && (loop.Some? ==> forall i :: 0 <= i < |rows| ==> IntOf(rows[i][1]).Success? && IntOf(rows[i][2]).Success?)
  }

  /** The integer columns the given filters read, `astype(int)` each: the
      period column, then the two loop columns; a column not read is left
      as zeros. */
  function FilterColumns(rows: seq<Row>, period: Option<int>, loop: Option<(int, int)>): (r: Result<(seq<int>, seq<int>, seq<int>)>)
    requires forall i :: 0 <= i < |rows| ==> |rows[i]| > 2
    ensures r.Success? <==> FilterColumnsConvert(rows, period, loop)
    ensures r.Failure? ==> r.error.ValueError?
    ensures r.Success? ==> |r.value.0| == |rows| && |r.value.1| == |rows| && |r.value.2| == |rows|
    ensures r.Success? ==> forall i :: 0 <= i < |rows| ==>
      && (period.Some? ==> IntOf(rows[i][0]) == Success(r.value.0[i]))
      && (loop.Some? ==> IntOf(rows[i][1]) == Success(r.value.1[i]) && IntOf(rows[i][2]) == Success(r.value.2[i]))
  {
    var zeros := seq(|rows|, _ => 0);
    var periods :- if period.Some? then ColumnInts(rows, 0) else Success(zeros);
    var loops1 :- if loop.Some? then ColumnInts(rows, 1) else Success(zeros);
    var loops2 :- if loop.Some? then ColumnInts(rows, 2) else Success(zeros);
    Success((periods, loops1, loops2))
  }

  /** The boolean mask of lines 102-106, from the converted filter columns. */
  function DistMask(rows: seq<Row>, od: OD, period: Option<int>, loop: Option<(int, int)>, cols: (seq<int>, seq<int>, seq<int>)): (mask: seq<bool>)
    requires forall i :: 0 <= i < |rows| ==> |rows[i]| > 8
    requires |cols.0| == |rows| && |cols.1| == |rows| && |cols.2| == |rows|
    requires forall i :: 0 <= i < |rows| ==>
      && (period.Some? ==> IntOf(rows[i][0]) == Success(cols.0[i]))
      && (loop.Some? ==> IntOf(rows[i][1]) == Success(cols.1[i]) && IntOf(rows[i][2]) == Success(cols.2[i]))
    ensures |mask| == |rows|
    ensures forall i :: 0 <= i < |rows| ==> (mask[i] <==> DistKeeps(rows[i], od, period, loop))
  {
    seq(|rows|, i requires 0 <= i < |rows| =>
      && rows[i][4] == Text(od.0) && rows[i][5] == Text(od.1) && rows[i][8] != Text(SumSentinel)
      && (period.Some? ==> cols.0[i] == period.value)
      && (loop.Some? ==> cols.1[i] == loop.value.0 && cols.2[i] == loop.value.1))
  }

  /** `SymuMasterDistributionReader.get_OD(OD, period, loop)`: the column
      tests build a mask (a column that does not convert to integers
      raises), then the path cells of the selected rows are split. */
  function DistributionGetOD(f: Frame, od: OD, period: Option<int>, loop: Option<(int, int)>): (r: Result<seq<Path>>)
    requires Rectangular(f)
    ensures f.width <= 8 ==> r == Failure(IndexError)
    ensures r.Success? ==>
      r.value == Seqs.Map(Seqs.Filter(f.rows, row => DistKeeps(row, od, period, loop)), DistLinks)
    ensures r.Success? ==> forall i :: 0 <= i < |f.rows| && DistKeeps(f.rows[i], od, period, loop) ==> f.rows[i][8].Text?
    ensures f.width > 8 ==>
      (r.Success? <==> FilterColumnsConvert(f.rows, period, loop)
                       && forall i :: 0 <= i < |f.rows| && DistKeeps(f.rows[i], od, period, loop) ==> f.rows[i][8].Text?)
    ensures f.width > 8 && !FilterColumnsConvert(f.rows, period, loop) ==> r.Failure? && r.error.ValueError?
    ensures f.width > 8 && FilterColumnsConvert(f.rows, period, loop) && r.Failure? ==> r.error == AttributeError
  {
    if f.width <= 8 then Failure(IndexError)
    else
      var cols :- FilterColumns(f.rows, period, loop);
      var mask := DistMask(f.rows, od, period, loop, cols);
      var paths :- CollectMasked(f.rows, mask);
      CollectMaskedIsFilter(f.rows, mask, od, period, loop);
      Success(paths)
  }
}

=== FILE: wrappers.dfy ===
/** Failure-compatible wrappers shared by every module of the model:
    `Option` for values Python represents with `None`, and `Result` for
    computations that may raise one of the Python exceptions in `PyError`. */
module Wrappers {

  datatype Option<+T> = None | Some(value: T) {
    predicate IsFailure() { None? }

    function PropagateFailure<U>(): Option<U>
      requires None?
    {
      None
    }

    function Extract(): T
      requires Some?
    {
      value
    }
  }

  /** The Python exceptions the modelled code can raise (or catch). */
  datatype PyError =
    | KeyError(key: string)
    | ValueError(text: string)
    | AttributeError
    | IndexError

  datatype Result<+R> = Success(value: R) | Failure(error: PyError) {
    predicate IsFailure() { Failure? }

    function PropagateFailure<U>(): Result<U>
      requires Failure?
    {
      Failure(error)
    }

    function Extract(): R
      requires Success?
    {
      value
    }
  }
}
